=== FILE: README.md ===
# Camp memorial site builder and QR tool in Dafny

This project models the two pieces of logic in the camp-memorial
repository that do real work on their input.

**The page builder (`build_from_csv.py`).** It reads one CSV row per
memorial and turns it into a record. Each record has:

- the name;
- a slug, used as the page's directory;
- the years, location and story;
- up to four photos.

The builder then writes HTML fragments from the records:

- the years paragraph;
- the photo figures;
- the story paragraphs;
- one list item per memorial on the map page.

**The batch QR tool (`tools/generate_qr.py`).** It reads a file of
`label,url` lines. For each line it decides what text the image encodes and
which file it is written to.

The model is split into these modules:

- `Wrappers` holds `Option` and the `Values` filter.
- `Text` holds the Python string primitives the two programs use: `strip`,
  `lower`, `replace`, `splitlines` and `join`. It also holds helpers that
  only serve to state properties: the prefix before a stop character
  (`Before`), the text after the last one (`AfterLast`), removal of a
  character class (`Remove`) and occurrence counting (`Occurrences`).
- `Html` holds:
  - `html.escape`;
  - its inverse `Unescape`;
  - a generic reader that takes a joined run of `open + text + close`
    elements apart again.
- `Slug` models `slugify`.
- `Records` holds the row normalisation of `read_rows`, plus its partner
  `ToRow`, which writes a record back as a row.
- `Render` holds the fragment builders. Each builder has a reader that
  takes its output apart again, and a lemma says what the reader gets
  back. For the years it is the years themselves, or nothing when they
  are blank. For the story it is its non-blank lines, stripped, in order.
  For the photos it is each path with the alt text shown, which is
  `Memorial photo` when the photo's own alt text is blank. For a map item
  it is the name and the location; the slug is not read back.
- `Qr` holds the QR tool's line parser and file naming.

## Model

| member | source | states |
|---|---|---|
| Text.Strip | build_from_csv.py:22 | `str.strip()` leaves no whitespace at either end |
| Text.StripSlice | build_from_csv.py:22 | stripping removes whitespace at the two ends and nothing else: the result is a slice of the input and everything outside it is whitespace |
| Text.SplitLines | build_from_csv.py:97 | `str.splitlines()` never yields a line that contains a line boundary |
| Text.SplitLinesCrLf | build_from_csv.py:97 | a line ended by `\r\n` is split off at that pair, which is one boundary and starts no empty line |
| Text.SplitLinesBreak | build_from_csv.py:97 | a line ended by any other single boundary character, or by a `\r` with no `\n` after it, is split off at that character |
| Text.SplitJoinLines | build_from_csv.py:97 | splitting lines joined with `\n` gives back those lines |
| Html.Escape | build_from_csv.py:90-91 | `html.escape` lets no `<`, `>`, `"` or `'` through and maps only the empty text to the empty text |
| Html.UnescapeEscape | build_from_csv.py:91 | unescaping an escaped text gives the original text back, so escaping loses nothing |
| Html.ParseJoined | build_from_csv.py:92 | elements without `<`, wrapped and joined with a separator, are read back as exactly those elements in order |
| Html.ReadEscaped | build_from_csv.py:97-100 | escaped texts, wrapped and joined, read back and unescaped, give the original texts |
| Slug.AsciiFold | build_from_csv.py:23 | after ASCII folding no character is outside ASCII |
| Slug.SquashRuns | build_from_csv.py:24 | no class character other than a hyphen remains, a leading class character becomes a hyphen, and no two hyphens stand together when the hyphen is in the class |
| Slug.SquashSeparator | build_from_csv.py:24 | a run of characters outside `[a-z0-9]` followed by a letter or digit becomes exactly one hyphen in front of it |
| Slug.SquashAppend | build_from_csv.py:24 | runs never reach across a letter or digit: a text ending in one is squashed on its own, whatever follows |
| Slug.SquashRemove | build_from_csv.py:24-26 | squashing runs keeps every character outside the class, in order, and adds none |
| Slug.TrimmedRunsAreSlug | build_from_csv.py:22-25 | once the hyphens are stripped, the text is already a slug: only `a-z`, `0-9` and single inner hyphens |
| Slug.SlugifyLastPassIsNoOp | build_from_csv.py:25-26 | collapsing `-{2,}` after the hyphen strip changes nothing |
| Slug.SlugifyShape | build_from_csv.py:21-27 | every slug holds only `a-z`, `0-9` and hyphens, with no hyphen at either end and no double hyphen |
| Slug.SlugifyFixes | build_from_csv.py:21-27 | `slugify` leaves every text of slug shape unchanged |
| Slug.SlugifyIdempotent | build_from_csv.py:21-27 | slugifying a slug again gives the same slug |
| Slug.LowerStripKeepsAlnum | build_from_csv.py:22 | stripping before lower-casing drops no letter or digit |
| Slug.SlugifyKeepsAlnum | build_from_csv.py:21-27 | for an ASCII name, the slug keeps every letter and digit of the lower-cased name, in order, and adds none |
| Slug.SlugifyEmptyIff | build_from_csv.py:21-27 | for an ASCII name, the slug is empty exactly when the lower-cased name has no letter or digit |
| Slug.SlugifyWord | build_from_csv.py:21-27 | a word whose lower-case form is already a slug (`Mary-Ann`) slugifies to that lower-case form |
| Slug.SlugifyJoin | build_from_csv.py:21-27 | two such words with any run of ASCII separators between them slugify to the two lower-case words joined by one hyphen |
| Slug.SlugifyJaneDoe | build_from_csv.py:21-27 | `Jane Doe` gives `jane-doe` |
| Slug.SlugifyAppend | build_from_csv.py:21-27 | after an ASCII name ending with a letter or digit, a run of separators and one more such word add one hyphen and the lower-case word to the name's slug; with `SlugifyWord` or `SlugifyJoin` this covers names of any number of words |
| Slug.SlugifyMaryAnnSmith | build_from_csv.py:21-27 | `Mary Ann Smith` gives `mary-ann-smith` |
| Slug.SlugifyCanBeEmpty | build_from_csv.py:21-27 | a non-blank name can still give an empty slug (`???`) |
| Records.ImageKeyInjective | build_from_csv.py:39-40 | the four `image{i}` columns are distinct, and so are the four `image{i}_alt` columns |
| Records.SlotImage | build_from_csv.py:39-40 | the path and alt of slot `i` are the stripped `image{i}` and `image{i}_alt` cells |
| Records.Slots | build_from_csv.py:38-40 | a row has exactly four photo slots, and the one at index `k` holds the stripped cells of columns `image{k+1}` and `image{k+1}_alt` |
| Records.FilledFromExact | build_from_csv.py:38-42 | the slots kept are exactly those with a non-blank path, in increasing slot order |
| Records.KeepFilledSelects | build_from_csv.py:37-42 | the photos kept are those slots themselves, in the same order |
| Records.CollectImages | build_from_csv.py:36-42 | a record has at most four photos, each with a non-blank stripped path |
| Records.CollectHeld | build_from_csv.py:36-42 | a row holding a list of non-blank photos in its first slots, and blanks after them, yields exactly that list |
| Records.ResolveSlug | build_from_csv.py:45 | a non-blank slug cell is used verbatim; otherwise the slug is `slugify(name)` and has slug shape |
| Records.NormalizeRow | build_from_csv.py:33-50 | a row yields no record exactly when its stripped name is blank; otherwise the name, years, location and story are the stripped cells, the photos are the filled slots in order, and the slug is the override verbatim when one is given and `slugify(name)` when not |
| Records.NormalizeToRow | build_from_csv.py:33-50 | a well-formed record with a non-blank slug, written back as a row, is read as the same record |
| Records.ReadRowsWellFormed | build_from_csv.py:32-50 | every record read satisfies the record invariant |
| Records.ReadRowsAppend | build_from_csv.py:32-50 | reading two files of rows one after the other gives the records of the first, then those of the second |
| Records.ReadRowsKeepsNamed | build_from_csv.py:32-35 | every row with a non-blank name yields its record |
| Records.ReadRowsFromRows | build_from_csv.py:32-50 | every record comes from some row |
| Records.ReadRowsEmpty | build_from_csv.py:33-35 | no record is read exactly when every row has a blank name |
| Render.YearsHtml | build_from_csv.py:107 | the years fragment is empty exactly when the years are blank |
| Render.YearsHtmlReads | build_from_csv.py:107 | the years fragment reads back as the years, or as nothing when they are blank |
| Render.YearsHtmlElements | build_from_csv.py:107 | before decoding, the years paragraph holds the years HTML-escaped, or is absent when they are blank |
| Render.NonBlankLines | build_from_csv.py:97 | each kept story line is non-blank and stripped |
| Render.NonBlankLinesSelect | build_from_csv.py:97 | the kept lines are chosen line by line: every non-blank line gives its stripped self, every blank line gives nothing, and the order is kept |
| Render.ParagraphsOfLines | build_from_csv.py:97 | the paragraphs of a story are its non-blank lines, stripped, in order |
| Render.StoryHtmlReads | build_from_csv.py:94-100 | the story fragment holds one paragraph per non-blank line, in order, and reads back as those stripped lines |
| Render.StoryHtmlElements | build_from_csv.py:94-100 | before decoding, the paragraphs of the story fragment are its non-blank lines, stripped and escaped, in order |
| Render.StoryHtmlEmpty | build_from_csv.py:95-99 | the story fragment is empty exactly when the story has no non-blank line |
| Render.AltAttribute | build_from_csv.py:90 | the alt attribute can hold no quote that would end it early |
| Render.AltAttributeReads | build_from_csv.py:90 | the alt attribute reads back as the alt text, or as `Memorial photo` when the alt text is blank |
| Render.DecodeFigureBody | build_from_csv.py:91 | one figure reads back as the photo's path and its shown alt text |
| Render.ImagesHtmlReads | build_from_csv.py:86-92 | the figures fragment reads back as the record's photos, in order, each with its shown alt text |
| Render.ImagesHtmlElements | build_from_csv.py:86-92 | before decoding, the figures fragment holds one figure per photo, in order, each with the escaped path and the alt attribute |
| Render.ImagesHtmlEmpty | build_from_csv.py:86-92 | the figures fragment is empty exactly when there are no photos |
| Render.ReadMapItem | build_from_csv.py:125-132 | a map item reads back as the record's name and location, whatever its slug holds |
| Render.MapItemShowsLocation | build_from_csv.py:127-132 | an item ends with a location line exactly when the location is non-blank |
| Render.MapListAppend | build_from_csv.py:123-132 | the item list of two runs of records is the items of the first run followed by those of the second |
| Render.MapItemCounts | build_from_csv.py:125-132 | an item opens exactly one `<li>`, and holds a `<div` exactly when the location is non-blank |
| Render.MapListCounts | build_from_csv.py:123-132 | the map list has one `<li>` per record and one `<div` per record with a location |
| Qr.SplitFirstJoin | tools/generate_qr.py:33 | `split(",", 1)` on a text with a comma gives two parts with no comma in the first, and the two parts joined by a comma give the text back |
| Qr.LabelAndUrlComma | tools/generate_qr.py:33 | the `"qr"` padding of the split is never read: the label is before the first comma and the url after it |
| Qr.FileName | tools/generate_qr.py:37 | the file name holds no space, is the label's length plus four, and ends in `.png` |
| Qr.FileNameKeeps | tools/generate_qr.py:37 | a label with no space and no upper-case letter names the file `label.png`, unchanged |
| Qr.FileNameNormal | tools/generate_qr.py:37 | a label and its lower-cased, hyphenated form name the same file, so `Gate A` and `gate-a` collide |
| Qr.FileNameExample | tools/generate_qr.py:37 | the label `Gate A` names the file `gate-a.png` |
| Qr.ParseLine | tools/generate_qr.py:29-37 | a line yields no image exactly when it is blank after stripping; the file name comes from the final label; a url equal to `qr` forces the label `qr` |
| Qr.ParseCommaLine | tools/generate_qr.py:33-36 | for a line with a comma, either the label and url joined by a comma rebuild the stripped line, or the url was `qr` and the old label (now the url) joined with `,qr` rebuilds it |
| Qr.ParseBareLine | tools/generate_qr.py:33-37 | every line without a comma encodes the whole stripped line and is written to `qr.png`, so such lines overwrite one another |
| Qr.ParseFormatted | tools/generate_qr.py:30-37 | a line written as label, comma, url is read back as that pair, unless the url is `qr`, in which case the two trade places and the file is `qr.png` |
| Qr.ParseSwapExample | tools/generate_qr.py:34-36 | `foo,qr` gives label `qr`, url `foo` and file `qr.png` |
| Qr.ParseLabelExample | tools/generate_qr.py:33-37 | `Gate A,https://example.com/a` gives that label and url and the file `gate-a.png` |
| Qr.JobsAppend | tools/generate_qr.py:29-32 | the images of two files read one after the other are those of the first, then those of the second |
| Qr.JobsFromLines | tools/generate_qr.py:29-37 | an image is produced exactly when some line of the file yields it |
| Qr.JobsEmpty | tools/generate_qr.py:29-32 | a file yields no image exactly when every line is blank after stripping |

## Left out

- Files, directories, `sys.argv`, the exit on a missing CSV file or a short argument list, and all printing are left out. The rows and lines are parameters.
- The CSV parser is left out. A row is the column-to-cell map that `csv.DictReader` produces, and a missing column reads as the empty string, as `row.get(...) or ""` does.
- `write_page` and `write_map` are modelled only as the fragments they insert. The page title and description are `escape(name)`, which `Html.Escape` models. The fixed page and map templates and the footer around them are literal text.
- `make_qr` and the PIL and qrcode libraries are foreign code and are left out. The model stops at the label, url and file name of each image.
- The QR tool's `open(infile)` line iteration is left out: the lines are given as they come from the file. The model keeps the per-line `strip()`.
- Text.Lower: `str.lower()` is modelled on ASCII letters only. Other characters are left unchanged.
- Slug.AsciiFold: `unicodedata.normalize("NFKD", ...)` followed by the ASCII encode with `ignore` is modelled as dropping every non-ASCII character. The real NFKD keeps the base letter of an accented character (`é` becomes `e`), and the model does not. The slug-shape lemma holds whatever the fold does. Idempotence needs only that the fold leaves ASCII text unchanged, which NFKD followed by the ASCII encode does.
- Html.Escape: `html.escape` is modelled as the character substitution of its five entities. Strings are sequences of characters, with no encoding to bytes.
- Render.MapItemCounts: requires a slug with no `<`. The slug override is inserted into the link unescaped, so a slug holding `<li>` or `<div` would change the counts. Render.ReadMapItem needs no such condition, because it reads an item from its end.
- Render.MapListCounts: requires that no slug holds `<`, for the same reason.
- Slug.SlugifyKeepsAlnum: stated for ASCII names only. For `é` the program's slug is `e`, while the model drops the character.
- Slug.SlugifyEmptyIff: stated for ASCII names only, for the same reason. The program's `slugify("é")` is `e`, not empty.
- Records.NormalizeToRow: requires a non-blank slug. A record whose derived slug is empty is written back with an empty slug cell, and reading that cell derives the slug again.

The model follows the code in two places where a reader might expect something else:

- A non-blank name can give an empty slug. `slugify("???")` is the empty string, as `Slug.SlugifyCanBeEmpty` shows, and the page then goes to `people/` itself. Python's NFKD step gives the empty slug for any name left with no ASCII letter or digit after folding, such as `???` or a name written only in Chinese characters.
- A QR line without a comma is not read as a label to be swapped. It gets the label `qr` and the whole line as its url. The swap fires only when the url is exactly `qr`. The result is the same either way: every comma-less line goes to `qr.png`.

=== FILE: html.dfy ===
/** The HTML side of the generator: Python's `html.escape` (with its
    default `quote=True`) as a character substitution, the decoder for the
    five entities it produces, and a reader that takes a rendered fragment
    of `open + text + close` elements apart again. The reader is the
    partner against which the fragment builders are checked. */
module Html {

  import opened Wrappers
  import opened Text

  /** The entity `html.escape` writes for one character. */
  function EscapeChar(c: char): string {
    match c
    case '&' => "&amp;"
    case '<' => "&lt;"
    case '>' => "&gt;"
    case '"' => "&quot;"
    case '\'' => "&#x27;"
    case _ => [c]
  }

  /** A character that `html.escape` never lets through. */
  predicate IsMarkup(c: char) {
    c == '<' || c == '>' || c == '"' || c == '\''
  }

  /** Python's `html.escape(s)`: every `&`, `<`, `>`, `"` and `'` replaced
      by its entity. No markup character survives it. */
  function Escape(s: string): (r: string)
    ensures NoneOf(r, IsMarkup)
    ensures |r| >= |s|
    ensures r == [] <==> s == []
  {
    if s == [] then [] else EscapeChar(s[0]) + Escape(s[1..])
  }

  /** Decodes the five entities `Escape` writes; every other character,
      including an `&` that starts none of them, stands for itself. */
  function Unescape(s: string): string
    decreases |s|
  {
    if s == [] then []
    else if "&amp;" <= s then "&" + Unescape(s[5..])
    else if "&lt;" <= s then "<" + Unescape(s[4..])
    else if "&gt;" <= s then ">" + Unescape(s[4..])
    else if "&quot;" <= s then "\"" + Unescape(s[6..])
    else if "&#x27;" <= s then "'" + Unescape(s[6..])
    else [s[0]] + Unescape(s[1..])
  }

  lemma UnescapeEntity(c: char, t: string)
    ensures Unescape(EscapeChar(c) + t) == [c] + Unescape(t)
  {
    if c == '&' {
      UnescapeAmp(t);
    } else if c == '<' || c == '>' {
      UnescapeAngle(c, t);
    } else if c == '"' || c == '\'' {
      UnescapeQuote(c, t);
    } else {
      var s := [c] + t;
      assert EscapeChar(c) == [c];
      assert s[0] == c && s[1..] == t;
    }
  }

  /** `&amp;` decodes to `&`. */
  lemma UnescapeAmp(t: string)
    ensures Unescape("&amp;" + t) == "&" + Unescape(t)
  {
    var s := "&amp;" + t;
    assert "&amp;" <= s && s[5..] == t;
  }

  /** `&lt;` and `&gt;` decode to the angle brackets. */
  lemma UnescapeAngle(c: char, t: string)
    requires c == '<' || c == '>'
    ensures Unescape(EscapeChar(c) + t) == [c] + Unescape(t)
  {
    var s := EscapeChar(c) + t;
    if c == '<' {
      assert s[1] == 'l';
      assert "&lt;" <= s && s[4..] == t;
    } else {
      assert s[1] == 'g';
      assert "&gt;" <= s && s[4..] == t;
    }
  }

  /** `&quot;` and `&#x27;` decode to the two quotes. */
  lemma UnescapeQuote(c: char, t: string)
    requires c == '"' || c == '\''
    ensures Unescape(EscapeChar(c) + t) == [c] + Unescape(t)
  {
    var s := EscapeChar(c) + t;
    if c == '"' {
      assert s[1] == 'q';
      assert "&quot;" <= s && s[6..] == t;
    } else {
      assert s[1] == '#';
      assert "&#x27;" <= s && s[6..] == t;
    }
  }

  /** Escaping loses nothing: the entities decode back to the text. */
  lemma {:induction false} UnescapeEscape(s: string)
    ensures Unescape(Escape(s)) == s
    decreases |s|
  {
    if s != [] {
      UnescapeEntity(s[0], Escape(s[1..]));
      UnescapeEscape(s[1..]);
      assert [s[0]] + s[1..] == s;
    }
  }

  /** Text without `&` decodes to itself. */
  lemma {:induction false} UnescapePlain(s: string)
    requires '&' !in s
    ensures Unescape(s) == s
    decreases |s|
  {
    if s != [] {
      assert s[0] != '&';
      UnescapePlain(s[1..]);
    }
  }

  predicate IsLt(c: char) { c == '<' }

  predicate IsQuote(c: char) { c == '"' }

  /** Every text wrapped as `open + text + close`, in order. */
  function WrapAll(texts: seq<string>, open: string, close: string): (r: seq<string>)
    ensures |r| == |texts|
  {
    seq(|texts|, k requires 0 <= k < |texts| => open + texts[k] + close)
  }

  /** Reads one element `open + text + close` at the start of `s`: its
      text, which runs up to the next `<`, and what follows the element. */
  function ReadElement(s: string, open: string, close: string): (r: Option<(string, string)>)
    requires close != []
    ensures r.Some? ==> |r.value.1| < |s|
  {
    if !(open <= s) then None
    else
      var body := s[|open|..];
      var text := Before(body, IsLt);
      var after := body[|text|..];
      if !(close <= after) then None
      else Some((text, after[|close|..]))
  }

  /** Reads a fragment made of elements `open + text + close` separated by
      `sep` back into its texts, in order; None when the fragment is not of
      that shape. */
  function ParseElements(s: string, open: string, close: string, sep: string): Option<seq<string>>
    requires close != [] && close[0] == '<'
    decreases |s|
  {
    if s == [] then Some([])
    else
      match ReadElement(s, open, close)
      case None => None
      case Some((text, tail)) =>
        if tail == [] then Some([text])
        else if !(sep <= tail) then None
        else
          match ParseElements(tail[|sep|..], open, close, sep)
          case None => None
          case Some(rest) => Some([text] + rest)
  }

  /** An element whose text holds no `<` is read back as that text. */
  lemma ReadElementOf(t: string, rest: string, open: string, close: string)
    requires close != [] && close[0] == '<'
    requires NoneOf(t, IsLt)
    ensures ReadElement(open + t + close + rest, open, close) == Some((t, rest))
  {
    var s := open + t + close + rest;
    assert s[|open|..] == t + (close + rest);
    BeforeStopsAt(t, close + rest, IsLt);
    assert (t + (close + rest))[|t|..] == close + rest;
    assert (close + rest)[|close|..] == rest;
  }

  /** Reading the last element of a fragment. */
  lemma ParseLast(t: string, open: string, close: string, sep: string)
    requires close != [] && close[0] == '<'
    requires NoneOf(t, IsLt)
    ensures ParseElements(open + t + close, open, close, sep) == Some([t])
  {
    ReadElementOf(t, "", open, close);
    assert open + t + close + "" == open + t + close;
  }

  /** Reading one element followed by a separator and more elements. */
  lemma ParseStep(t: string, rest: string, open: string, close: string, sep: string)
    requires close != [] && close[0] == '<'
    requires NoneOf(t, IsLt)
    requires rest != []
    ensures ParseElements(open + t + close + sep + rest, open, close, sep)
            == match ParseElements(rest, open, close, sep)
               case None => None
               case Some(more) => Some([t] + more)
  {
    var tail := sep + rest;
    ReadElementOf(t, tail, open, close);
    assert open + t + close + sep + rest == open + t + close + tail;
    assert tail[|sep|..] == rest;
  }

  /** The first element of a joined fragment of two or more. */
  lemma ParseJoinedCons(texts: seq<string>, open: string, close: string, sep: string)
    requires close != [] && close[0] == '<'
    requires |texts| > 1 && NoneOf(texts[0], IsLt)
    requires ParseElements(JoinWith(WrapAll(texts[1..], open, close), sep), open, close, sep) == Some(texts[1..])
    ensures ParseElements(JoinWith(WrapAll(texts, open, close), sep), open, close, sep) == Some(texts)
  {
    var parts := WrapAll(texts, open, close);
    var rest := JoinWith(WrapAll(texts[1..], open, close), sep);
    assert parts[1..] == WrapAll(texts[1..], open, close);
    assert parts[0] == open + texts[0] + close;
    assert JoinWith(parts, sep) == parts[0] + sep + rest;
    assert rest != [] by {
      assert WrapAll(texts[1..], open, close)[0] != [];
    }
    ParseStep(texts[0], rest, open, close, sep);
    assert [texts[0]] + texts[1..] == texts;
  }

  /** The element reader undoes `sep.join` of wrapped texts that hold no `<`. */
  lemma {:induction false} ParseJoined(texts: seq<string>, open: string, close: string, sep: string)
    requires close != [] && close[0] == '<'
    requires forall k :: 0 <= k < |texts| ==> NoneOf(texts[k], IsLt)
    ensures ParseElements(JoinWith(WrapAll(texts, open, close), sep), open, close, sep) == Some(texts)
    decreases |texts|
  {
    if |texts| == 1 {
      assert JoinWith(WrapAll(texts, open, close), sep) == open + texts[0] + close;
      ParseLast(texts[0], open, close, sep);
      assert [texts[0]] == texts;
    } else if |texts| > 1 {
      ParseJoined(texts[1..], open, close, sep);
      ParseJoinedCons(texts, open, close, sep);
    }
  }

  /** The texts of a fragment, decoded: the reader followed by `Unescape`. */
  function ReadTexts(s: string, open: string, close: string, sep: string): Option<seq<string>>
    requires close != [] && close[0] == '<'
  {
    match ParseElements(s, open, close, sep)
    case None => None
    case Some(ts) => Some(seq(|ts|, k requires 0 <= k < |ts| => Unescape(ts[k])))
  }

  /** The empty fragment holds no elements. */
  lemma ReadTextsEmpty(open: string, close: string, sep: string)
    requires close != [] && close[0] == '<'
    ensures ReadTexts("", open, close, sep) == Some([])
  {
    var ts: seq<string> := [];
    assert ParseElements("", open, close, sep) == Some(ts);
    var texts := seq(|ts|, k requires 0 <= k < |ts| => Unescape(ts[k]));
    assert |texts| == 0;
  }

  /** Every text escaped, in order. */
  function EscapeAll(texts: seq<string>): (r: seq<string>)
    ensures |r| == |texts|
    ensures forall k :: 0 <= k < |r| ==> NoneOf(r[k], IsMarkup)
  {
    seq(|texts|, k requires 0 <= k < |texts| => Escape(texts[k]))
  }

  /** A fragment of escaped, wrapped and joined texts reads back as the
      texts themselves. */
  lemma ReadEscaped(texts: seq<string>, open: string, close: string, sep: string)
    requires close != [] && close[0] == '<'
    ensures ReadTexts(JoinWith(WrapAll(EscapeAll(texts), open, close), sep), open, close, sep) == Some(texts)
  {
    var escaped := EscapeAll(texts);
    var s := JoinWith(WrapAll(escaped, open, close), sep);
    ParseJoined(escaped, open, close, sep);
    var decoded := seq(|escaped|, k requires 0 <= k < |escaped| => Unescape(escaped[k]));
    assert ReadTexts(s, open, close, sep) == Some(decoded);
    forall k | 0 <= k < |texts|
      ensures decoded[k] == texts[k]
    {
      UnescapeEscape(texts[k]);
    }
    assert decoded == texts;
  }
}

=== FILE: qr.dfy ===
/** The line parser of the batch QR tool: each line of its input file
    names one image, as `label,url` or as a bare url, and the label gives
    the image's file name. */
module Qr {
  import opened Wrappers
  import opened Text

  /** One image to write: its label (`name`), the text it encodes and the
      file it goes to. */
  datatype Job = Job(name: string, url: string, fileName: string)

  /** The label a line gets when it names none. */
  const DefaultLabel := "qr"
  const Extension := ".png"

  predicate IsComma(c: char) {
    c == ','
  }

  /** Python's `s.split(",", 1)`: the whole text when it holds no comma,
      otherwise the parts before and after the first comma. */
  function SplitFirst(s: string): (r: seq<string>)
    ensures 1 <= |r| <= 2
  {
    if ',' in s then
      var head := Before(s, IsComma);
      [head, s[|head| + 1..]]
    else [s]
  }

  /** Splitting at the first comma loses nothing: the parts joined with a
      comma give back the text, and the first part holds no comma. */
  lemma SplitFirstJoin(s: string)
    ensures ',' !in s ==> SplitFirst(s) == [s]
    ensures ',' in s ==> |SplitFirst(s)| == 2
    ensures ',' in s ==> SplitFirst(s)[0] + "," + SplitFirst(s)[1] == s
    ensures ',' in s ==> ',' !in SplitFirst(s)[0]
  {
    if ',' in s {
      var head := Before(s, IsComma);
      assert head + [s[|head|]] + s[|head| + 1..] == s;
      assert ',' !in head by {
        forall i | 0 <= i < |head| ensures head[i] != ',' {
          assert !IsComma(head[i]);
        }
      }
    }
  }

  /** The label and url a stripped line names before the swap: with a
      comma, the split padded with the default label and cut to two parts;
      without one, the default label and the whole line. */
  function LabelAndUrl(s: string): (string, string)
  {
    if ',' in s then
      var parts := SplitFirst(s) + [DefaultLabel];
      (parts[0], parts[1])
    else (DefaultLabel, s)
  }

  /** The file an image goes to: the label with spaces turned into `-`,
      lower-cased, with the extension appended. */
  function FileName(name: string): (r: string)
    ensures |r| == |name| + |Extension|
    ensures EndsWith(r, Extension)
    ensures ' ' !in r
  {
    var stem := Lower(Replace(name, ' ', '-'));
    assert ' ' !in stem by {
      forall i | 0 <= i < |stem| ensures stem[i] != ' ' {
        assert Replace(name, ' ', '-')[i] != ' ';
      }
    }
    EndsWithAppend(stem, Extension);
    stem + Extension
  }

  /** A label already in file-name form: no space and no upper-case
      letter. */
  predicate IsFileStem(name: string) {
    forall i :: 0 <= i < |name| ==> name[i] != ' ' && !('A' <= name[i] <= 'Z')
  }

  /** A label in file-name form, `gate-a` say, names the file `gate-a.png`:
      nothing in it is changed. */
  lemma FileNameKeeps(name: string)
    requires IsFileStem(name)
    ensures FileName(name) == name + Extension
  {
    var replaced := Replace(name, ' ', '-');
    assert replaced == name;
    forall i | 0 <= i < |name|
      ensures Lower(name)[i] == name[i]
    {
      assert !('A' <= name[i] <= 'Z');
    }
  }

  /** The file of a label is the file of its own file-name form, so labels
      that differ only in case or in spaces against hyphens (`Gate A`,
      `gate-a`) go to the same file. */
  lemma FileNameNormal(name: string)
    ensures FileName(Lower(Replace(name, ' ', '-'))) == FileName(name)
  {
    var replaced := Replace(name, ' ', '-');
    var stem := Lower(replaced);
    forall i | 0 <= i < |stem|
      ensures stem[i] != ' ' && !('A' <= stem[i] <= 'Z')
    {
      assert replaced[i] != ' ';
    }
    FileNameKeeps(stem);
  }

  /** One input line read: nothing for a blank line, otherwise the label
      and url it names, where a url of exactly `qr` trades places with the
      label. */
  function ParseLine(line: string): (r: Option<Job>)
    ensures r.None? <==> Strip(line) == ""
    ensures r.Some? ==> r.value.fileName == FileName(r.value.name)
    ensures r.Some? ==> r.value.url != DefaultLabel || r.value.name == DefaultLabel
  {
    var s := Strip(line);
    if s == "" then None
    else
      var pair := LabelAndUrl(s);
      var name, url := pair.0, pair.1;
      if url == DefaultLabel then Some(Job(DefaultLabel, name, FileName(DefaultLabel)))
      else Some(Job(name, url, FileName(name)))
  }

  /** The padding of the split is never read: a line with a comma has its
      label before the first comma and its url after it, whatever follows. */
  lemma LabelAndUrlComma(s: string)
    requires ',' in s
    ensures ',' !in LabelAndUrl(s).0
    ensures LabelAndUrl(s).0 + "," + LabelAndUrl(s).1 == s
  {
    SplitFirstJoin(s);
  }

  /** A line with a comma, read back: either the label and url joined by a
      comma give the stripped line, or the url was `qr` and the old label,
      now the url, joined with `qr` gives it. */
  lemma ParseCommaLine(line: string)
    requires ',' in Strip(line)
    ensures ParseLine(line).Some?
    ensures var j := ParseLine(line).value;
            (',' !in j.name && j.name + "," + j.url == Strip(line) && j.url != DefaultLabel)
            || (j.name == DefaultLabel && ',' !in j.url && j.url + "," + DefaultLabel == Strip(line))
  {
    LabelAndUrlComma(Strip(line));
  }

  /** Every line without a comma encodes the whole stripped line and goes to
      `qr.png`, so such lines overwrite one another. */
  lemma ParseBareLine(line: string)
    requires Strip(line) != "" && ',' !in Strip(line)
    ensures ParseLine(line) == Some(Job(DefaultLabel, Strip(line), "qr.png"))
  {
    QrFileName();
  }

  /** A label without a comma, a comma and a url are split back into that
      label and that url. */
  lemma LabelAndUrlOf(name: string, url: string)
    requires ',' !in name
    ensures LabelAndUrl(name + "," + url) == (name, url)
  {
    var s := name + "," + url;
    assert s[|name|] == ',';
    LabelAndUrlComma(s);
    var pair := LabelAndUrl(s);
    assert |pair.0| == |name|;
    assert pair.0 == s[..|name|] == name;
    assert s[|name| + 1..] == url;
    assert (pair.0 + "," + pair.1)[|name| + 1..] == pair.1;
  }

  /** Writing a label and url as a line and reading it back: the same pair,
      unless the url is `qr`, in which case the two trade places. */
  lemma ParseFormatted(name: string, url: string)
    requires ',' !in name
    requires IsStripped(name + "," + url)
    ensures url != DefaultLabel ==> ParseLine(name + "," + url) == Some(Job(name, url, FileName(name)))
    ensures url == DefaultLabel ==> ParseLine(name + "," + url) == Some(Job(DefaultLabel, name, "qr.png"))
  {
    var s := name + "," + url;
    StripOfStripped(s);
    assert s != "";
    LabelAndUrlOf(name, url);
    QrFileName();
  }

  /** The file of the default label. */
  lemma QrFileName()
    ensures FileName(DefaultLabel) == "qr.png"
  {
  }

  /** A line naming `qr` as its url: the label becomes the url and the
      image goes to `qr.png`. */
  lemma ParseSwapExample()
    ensures ParseLine("foo,qr") == Some(Job("qr", "foo", "qr.png"))
  {
    SwapLineText();
    ParseFormatted("foo", "qr");
  }

  /** The line `foo,qr` written as its two parts. */
  lemma SwapLineText()
    ensures "foo" + "," + "qr" == "foo,qr"
    ensures ',' !in "foo" && IsStripped("foo,qr")
  {
  }

  /** The line `Gate A,https://example.com/a` written as its two parts. */
  lemma LabelLineText()
    ensures "Gate A" + "," + "https://example.com/a" == "Gate A,https://example.com/a"
    ensures ',' !in "Gate A" && IsStripped("Gate A,https://example.com/a")
  {
  }

  /** The file of a labelled image: spaces turned into `-` and
      lower-cased. */
  lemma FileNameExample()
    ensures FileName("Gate A") == "gate-a.png"
  {
    assert Replace("Gate A", ' ', '-') == "Gate-A";
    assert Lower("Gate-A") == "gate-a";
  }

  /** A labelled line names its own file. */
  lemma ParseLabelExample()
    ensures ParseLine("Gate A,https://example.com/a") == Some(Job("Gate A", "https://example.com/a", "gate-a.png"))
  {
    LabelLineText();
    ParseFormatted("Gate A", "https://example.com/a");
    FileNameExample();
  }

  /** The images of a whole file, one per non-blank line, in order. */
  function Jobs(lines: seq<string>): (r: seq<Job>)
    ensures |r| <= |lines|
  {
    Values(seq(|lines|, k requires 0 <= k < |lines| => ParseLine(lines[k])))
  }

  /** Reading two files one after the other gives the images of the first,
      then those of the second. */
  lemma JobsAppend(a: seq<string>, b: seq<string>)
    ensures Jobs(a + b) == Jobs(a) + Jobs(b)
  {
    var pa := seq(|a|, k requires 0 <= k < |a| => ParseLine(a[k]));
    var pb := seq(|b|, k requires 0 <= k < |b| => ParseLine(b[k]));
    var ab := a + b;
    var pab := seq(|ab|, k requires 0 <= k < |ab| => ParseLine(ab[k]));
    assert pab == pa + pb;
    ValuesAppend(pa, pb);
  }

  /** Every image comes from some line of the file, and every non-blank line
      gives one. */
  lemma JobsFromLines(lines: seq<string>, j: Job)
    ensures j in Jobs(lines) <==> exists k :: 0 <= k < |lines| && ParseLine(lines[k]) == Some(j)
  {
    var p := seq(|lines|, k requires 0 <= k < |lines| => ParseLine(lines[k]));
    if j in Jobs(lines) {
      ValuesFrom(p, j);
    }
    if exists k :: 0 <= k < |lines| && ParseLine(lines[k]) == Some(j) {
      var k :| 0 <= k < |lines| && ParseLine(lines[k]) == Some(j);
      assert p[k] == Some(j);
      ValuesKeep(p, k);
    }
  }

  /** A file yields no image exactly when every line is blank. */
  lemma JobsEmpty(lines: seq<string>)
    ensures Jobs(lines) == [] <==> forall k :: 0 <= k < |lines| ==> Strip(lines[k]) == ""
  {
    var p := seq(|lines|, k requires 0 <= k < |lines| => ParseLine(lines[k]));
    ValuesEmpty(p);
    assert forall k :: 0 <= k < |lines| ==> (p[k].None? <==> Strip(lines[k]) == "");
  }
}

=== FILE: records.dfy ===
/** The per-row normalisation of `read_rows`: one CSV row, already parsed
    into a column-to-cell map, becomes at most one memorial record. */
module Records {

  import opened Wrappers
  import opened Text
  import Slug

  /** One row as `csv.DictReader` yields it. */
  type Row = map<string, string>

  /** A memorial photo: its path and its (possibly blank) alt text. */
  datatype Image = Image(path: string, alt: string)

  /** The record `read_rows` yields for one row. */
  datatype Memorial = Memorial(
    name: string,
    slug: string,
    years: string,
    location: string,
    story: string,
    images: seq<Image>)

  const NameColumn := "name"
  const SlugColumn := "slug(optional)"
  const YearsColumn := "years"
  const LocationColumn := "location"
  const StoryColumn := "story"

  /** The image slots are `image1` to `image4` (`range(1, 5)`). */
  const LastSlot := 4

  /** `(row.get(key) or "")`: a missing column reads as the empty string. */
  function Field(row: Row, key: string): string {
    if key in row then row[key] else ""
  }

  /** `(row.get(key) or "").strip()`. */
  function Cell(row: Row, key: string): string {
    Strip(Field(row, key))
  }

  /** The column `image{i}`. */
  function ImageKey(i: nat): (k: string)
    requires 1 <= i <= LastSlot
    ensures |k| == 6
  {
    "image" + [('0' as int + i) as char]
  }

  /** The column `image{i}_alt`. */
  function AltKey(i: nat): (k: string)
    requires 1 <= i <= LastSlot
    ensures |k| == 10
  {
    ImageKey(i) + "_alt"
  }

  lemma ImageKeyInjective(i: nat, j: nat)
    requires 1 <= i <= LastSlot && 1 <= j <= LastSlot
    ensures ImageKey(i) == ImageKey(j) <==> i == j
    ensures AltKey(i) == AltKey(j) <==> i == j
  {
    if ImageKey(i) == ImageKey(j) {
      assert ImageKey(i)[5] == ImageKey(j)[5];
    }
    if AltKey(i) == AltKey(j) {
      assert AltKey(i)[5] == AltKey(j)[5];
    }
  }

  /** The trimmed path and alt text of slot `i`. */
  function SlotImage(row: Row, i: nat): (r: Image)
    requires 1 <= i <= LastSlot
    ensures IsStripped(r.path) && IsStripped(r.alt)
    ensures r.path == Cell(row, ImageKey(i)) && r.alt == Cell(row, AltKey(i))
  {
    Image(Cell(row, ImageKey(i)), Cell(row, AltKey(i)))
  }

  /** Images whose path and alt text are both trimmed. */
  predicate AllStripped(images: seq<Image>) {
    forall k :: 0 <= k < |images| ==> IsStripped(images[k].path) && IsStripped(images[k].alt)
  }

  /** The four slots of a row, `image1` first; index `k` is slot `k + 1`. */
  function Slots(row: Row): (r: seq<Image>)
    ensures |r| == LastSlot
    ensures AllStripped(r)
    ensures forall k :: 0 <= k < LastSlot ==>
              r[k].path == Cell(row, ImageKey(k + 1)) && r[k].alt == Cell(row, AltKey(k + 1))
  {
    seq(LastSlot, k requires 0 <= k < LastSlot => SlotImage(row, k + 1))
  }

  /** The indices from `i` on of the slots whose path is not blank. */
  function FilledFrom(slots: seq<Image>, i: nat): (r: seq<nat>)
    requires i <= |slots|
    ensures forall k :: 0 <= k < |r| ==> i <= r[k] < |slots|
    decreases |slots| - i
  {
    if i == |slots| then []
    else (if slots[i].path != "" then [i] else []) + FilledFrom(slots, i + 1)
  }

  /** `f` lists every index from `i` on whose slot path is not blank, and
      nothing else, in increasing order, so each once. */
  predicate ListsFilled(slots: seq<Image>, i: nat, f: seq<nat>) {
    && (forall k :: 0 <= k < |f| ==> i <= f[k] < |slots| && slots[f[k]].path != "")
    && (forall j :: i <= j < |slots| && slots[j].path != "" ==> j in f)
    && (forall a, b :: 0 <= a < b < |f| ==> f[a] < f[b])
  }

  /** A filled slot at `i` goes at the head of the list from `i + 1`. */
  lemma ListsFilledCons(slots: seq<Image>, i: nat, f: seq<nat>)
    requires i < |slots| && slots[i].path != ""
    requires ListsFilled(slots, i + 1, f)
    ensures ListsFilled(slots, i, [i] + f)
  {
    var r := [i] + f;
    forall k | 0 < k < |r|
      ensures r[k] == f[k - 1]
    {
    }
    forall j | i < j < |slots| && slots[j].path != ""
      ensures j in r
    {
      assert j in f;
    }
  }

  /** A blank slot at `i` leaves the list from `i + 1` as it is. */
  lemma ListsFilledSkip(slots: seq<Image>, i: nat, f: seq<nat>)
    requires i < |slots| && slots[i].path == ""
    requires ListsFilled(slots, i + 1, f)
    ensures ListsFilled(slots, i, f)
  {
  }

  /** `FilledFrom` lists every filled index from `i` on and nothing else,
      in increasing order. */
  lemma {:induction false} FilledFromExact(slots: seq<Image>, i: nat)
    requires i <= |slots|
    ensures ListsFilled(slots, i, FilledFrom(slots, i))
    decreases |slots| - i
  {
    if i < |slots| {
      FilledFromExact(slots, i + 1);
      var f := FilledFrom(slots, i + 1);
      if slots[i].path != "" {
        assert FilledFrom(slots, i) == [i] + f;
        ListsFilledCons(slots, i, f);
      } else {
        assert FilledFrom(slots, i) == f;
        ListsFilledSkip(slots, i, f);
      }
    }
  }

  /** The image loop of `read_rows` from index `i` on: the slots whose
      path is not blank, in slot order. */
  function KeepFilled(slots: seq<Image>, i: nat): (r: seq<Image>)
    requires i <= |slots|
    ensures |r| <= |slots| - i
    ensures forall k :: 0 <= k < |r| ==> r[k].path != ""
    ensures AllStripped(slots) ==> AllStripped(r)
    decreases |slots| - i
  {
    if i == |slots| then []
    else (if slots[i].path != "" then [slots[i]] else []) + KeepFilled(slots, i + 1)
  }

  /** The kept images are exactly the slots at the filled indices, in
      order: no filled slot is dropped, no blank one kept, none reordered. */
  lemma {:induction false} KeepFilledSelects(slots: seq<Image>, i: nat)
    requires i <= |slots|
    ensures |KeepFilled(slots, i)| == |FilledFrom(slots, i)|
    ensures forall k :: 0 <= k < |KeepFilled(slots, i)| ==>
              KeepFilled(slots, i)[k] == slots[FilledFrom(slots, i)[k]]
    decreases |slots| - i
  {
    if i < |slots| {
      KeepFilledSelects(slots, i + 1);
      var f, kept := FilledFrom(slots, i + 1), KeepFilled(slots, i + 1);
      if slots[i].path != "" {
        assert FilledFrom(slots, i) == [i] + f;
        assert KeepFilled(slots, i) == [slots[i]] + kept;
        forall k | 0 < k < |kept| + 1
          ensures ([slots[i]] + kept)[k] == slots[([i] + f)[k]]
        {
          assert ([slots[i]] + kept)[k] == kept[k - 1];
          assert ([i] + f)[k] == f[k - 1];
        }
      } else {
        assert FilledFrom(slots, i) == f;
        assert KeepFilled(slots, i) == kept;
      }
    }
  }

  /** The images of a row: at most four, each the trimmed pair of a slot
      whose trimmed path is not blank, in slot order. */
  function CollectImages(row: Row): (r: seq<Image>)
    ensures |r| <= LastSlot
    ensures forall k :: 0 <= k < |r| ==> r[k].path != ""
    ensures AllStripped(r)
  {
    KeepFilled(Slots(row), 0)
  }

  /** The invariant every record of `read_rows` keeps: a non-blank name,
      trimmed text fields, and at most four images with trimmed, non-blank
      paths and trimmed alt texts. */
  predicate WellFormed(m: Memorial) {
    && m.name != ""
    && IsStripped(m.name)
    && IsStripped(m.years)
    && IsStripped(m.location)
    && IsStripped(m.story)
    && |m.images| <= LastSlot
    && forall k :: 0 <= k < |m.images| ==>
         m.images[k].path != "" && IsStripped(m.images[k].path) && IsStripped(m.images[k].alt)
  }

  /** The slug of a record: the trimmed `slug(optional)` cell verbatim
      when it is not blank, else `slugify(name)`. */
  function ResolveSlug(given: string, name: string): (r: string)
    ensures given != "" ==> r == given
    ensures given == "" ==> r == Slug.Slugify(name) && Slug.IsSlug(r)
  {
    Slug.SlugifyShape(name);
    if given != "" then given else Slug.Slugify(name)
  }

  /** The body of the `read_rows` loop for one row: None for a row whose
      trimmed name is blank, else the record of the trimmed cells. */
  function NormalizeRow(row: Row): (r: Option<Memorial>)
    ensures r.None? <==> Cell(row, NameColumn) == ""
    ensures r.Some? ==> WellFormed(r.value)
    ensures r.Some? && Cell(row, SlugColumn) != "" ==> r.value.slug == Cell(row, SlugColumn)
    ensures r.Some? && Cell(row, SlugColumn) == "" ==>
              r.value.slug == Slug.Slugify(Cell(row, NameColumn)) && Slug.IsSlug(r.value.slug)
    ensures r.Some? ==> r.value.name == Cell(row, NameColumn) && r.value.years == Cell(row, YearsColumn)
    ensures r.Some? ==> r.value.location == Cell(row, LocationColumn) && r.value.story == Cell(row, StoryColumn)
    ensures r.Some? ==> r.value.images == CollectImages(row)
  {
    var name := Cell(row, NameColumn);
    if name == "" then None
    else
      Some(Memorial(
        name,
        ResolveSlug(Cell(row, SlugColumn), name),
        Cell(row, YearsColumn),
        Cell(row, LocationColumn),
        Cell(row, StoryColumn),
        CollectImages(row)))
  }

  /** The per-row results of the `read_rows` loop. */
  function NormalizeRows(rows: seq<Row>): (r: seq<Option<Memorial>>)
    ensures |r| == |rows|
    ensures forall k :: 0 <= k < |rows| ==> r[k] == NormalizeRow(rows[k])
  {
    seq(|rows|, k requires 0 <= k < |rows| => NormalizeRow(rows[k]))
  }

  /** `list(read_rows(path))` over the parsed rows: the records of the
      rows whose name is not blank, in row order. */
  function ReadRows(rows: seq<Row>): (r: seq<Memorial>)
    ensures |r| <= |rows|
  {
    Values(NormalizeRows(rows))
  }

  /** Every record `read_rows` yields keeps the record invariant. */
  lemma ReadRowsWellFormed(rows: seq<Row>, m: Memorial)
    requires m in ReadRows(rows)
    ensures WellFormed(m)
  {
    ValuesFrom(NormalizeRows(rows), m);
  }

  /** Rows are read one at a time, in order: the records of two files
      laid end to end are the records of each, in turn. */
  lemma ReadRowsAppend(a: seq<Row>, b: seq<Row>)
    ensures ReadRows(a + b) == ReadRows(a) + ReadRows(b)
  {
    assert NormalizeRows(a + b) == NormalizeRows(a) + NormalizeRows(b);
    ValuesAppend(NormalizeRows(a), NormalizeRows(b));
  }

  /** Every row whose trimmed name is not blank contributes its record. */
  lemma ReadRowsKeepsNamed(rows: seq<Row>, k: nat)
    requires k < |rows| && Cell(rows[k], NameColumn) != ""
    ensures NormalizeRow(rows[k]).value in ReadRows(rows)
  {
    ValuesKeep(NormalizeRows(rows), k);
  }

  /** Every record read comes from one of the rows. */
  lemma ReadRowsFromRows(rows: seq<Row>, m: Memorial)
    requires m in ReadRows(rows)
    ensures exists k :: 0 <= k < |rows| && NormalizeRow(rows[k]) == Some(m)
  {
    ValuesFrom(NormalizeRows(rows), m);
  }

  /** No record is read exactly when every row's name is blank. */
  lemma ReadRowsEmpty(rows: seq<Row>)
    ensures ReadRows(rows) == [] <==> forall k :: 0 <= k < |rows| ==> Cell(rows[k], NameColumn) == ""
  {
    ValuesEmpty(NormalizeRows(rows));
  }

  /** The image columns of a row that holds `images` in the slots from
      `i` on. */
  function ImageColumns(images: seq<Image>, i: nat): (r: Row)
    requires 1 <= i && i + |images| <= LastSlot + 1
    ensures forall k :: k in r ==> |k| == 6 || |k| == 10
    decreases |images|
  {
    if images == [] then map[]
    else ImageColumns(images[1..], i + 1)[ImageKey(i) := images[0].path][AltKey(i) := images[0].alt]
  }

  /** The text columns of a row holding `m`. */
  function TextColumns(m: Memorial): (r: Row)
    ensures forall k :: k in r ==> |k| != 6 && |k| != 10
  {
    map[NameColumn := m.name, SlugColumn := m.slug, YearsColumn := m.years,
        LocationColumn := m.location, StoryColumn := m.story]
  }

  /** A CSV row holding a record: its cells in the columns `read_rows`
      reads, the images in slots `image1`, `image2`, ... */
  function ToRow(m: Memorial): Row
    requires |m.images| <= LastSlot
  {
    TextColumns(m) + ImageColumns(m.images, 1)
  }

  /** A column of a merged row comes from the side that has it. */
  lemma FieldOfMerge(a: Row, b: Row, key: string)
    ensures key in b ==> Field(a + b, key) == b[key]
    ensures key !in b ==> Field(a + b, key) == Field(a, key)
    ensures key !in a ==> Field(a + b, key) == Field(b, key)
  {
  }

  /** Both columns of slot `j` hold the image placed there, or blanks. */
  lemma ImageColumnsLookup(images: seq<Image>, i: nat, j: nat)
    requires 1 <= i && i + |images| <= LastSlot + 1
    requires 1 <= j <= LastSlot
    ensures Field(ImageColumns(images, i), ImageKey(j)) == if i <= j < i + |images| then images[j - i].path else ""
    ensures Field(ImageColumns(images, i), AltKey(j)) == if i <= j < i + |images| then images[j - i].alt else ""
  {
    PathColumnLookup(images, i, j);
    AltColumnLookup(images, i, j);
  }

  /** The two columns of slot `i` are neither column of another slot, and
      a path column is never an alt column. */
  lemma KeysDiffer(i: nat, j: nat)
    requires 1 <= i <= LastSlot && 1 <= j <= LastSlot
    ensures AltKey(i) != ImageKey(j) && ImageKey(i) != AltKey(j)
    ensures i != j ==> ImageKey(i) != ImageKey(j) && AltKey(i) != AltKey(j)
  {
    ImageKeyInjective(i, j);
    assert |AltKey(i)| != |ImageKey(j)| && |ImageKey(i)| != |AltKey(j)|;
  }

  /** The path column of slot `j` holds the path of the image placed there. */
  lemma {:induction false} PathColumnLookup(images: seq<Image>, i: nat, j: nat)
    requires 1 <= i && i + |images| <= LastSlot + 1
    requires 1 <= j <= LastSlot
    ensures Field(ImageColumns(images, i), ImageKey(j)) == if i <= j < i + |images| then images[j - i].path else ""
    decreases |images|
  {
    if images != [] {
      PathColumnLookup(images[1..], i + 1, j);
      KeysDiffer(i, j);
      var rest := ImageColumns(images[1..], i + 1);
      var withPath := rest[ImageKey(i) := images[0].path];
      var m := withPath[AltKey(i) := images[0].alt];
      assert ImageColumns(images, i) == m;
      assert Field(m, ImageKey(j)) == Field(withPath, ImageKey(j));
      if i == j {
        assert Field(m, ImageKey(j)) == images[0].path;
      } else {
        assert Field(m, ImageKey(j)) == Field(rest, ImageKey(j));
        if i < j < i + |images| {
          assert images[1..][j - (i + 1)] == images[j - i];
        }
      }
    }
  }

  /** The alt column of slot `j` holds the alt text of the image placed there. */
  lemma {:induction false} AltColumnLookup(images: seq<Image>, i: nat, j: nat)
    requires 1 <= i && i + |images| <= LastSlot + 1
    requires 1 <= j <= LastSlot
    ensures Field(ImageColumns(images, i), AltKey(j)) == if i <= j < i + |images| then images[j - i].alt else ""
    decreases |images|
  {
    if images != [] {
      AltColumnLookup(images[1..], i + 1, j);
      KeysDiffer(i, j);
      var rest := ImageColumns(images[1..], i + 1);
      var withPath := rest[ImageKey(i) := images[0].path];
      var m := withPath[AltKey(i) := images[0].alt];
      assert ImageColumns(images, i) == m;
      if i == j {
        assert Field(m, AltKey(j)) == images[0].alt;
      } else {
        assert Field(m, AltKey(j)) == Field(withPath, AltKey(j)) == Field(rest, AltKey(j));
        if i < j < i + |images| {
          assert images[1..][j - (i + 1)] == images[j - i];
        }
      }
    }
  }

  /** Filtering slots that hold filled slots first and blank ones after
      keeps exactly the filled ones. */
  lemma {:induction false} KeepFilledPrefix(slots: seq<Image>, n: nat, i: nat)
    requires n <= |slots| && i <= |slots|
    requires forall k :: 0 <= k < n ==> slots[k].path != ""
    requires forall k :: n <= k < |slots| ==> slots[k].path == ""
    ensures KeepFilled(slots, i) == if i <= n then slots[i..n] else []
    decreases |slots| - i
  {
    if i < |slots| {
      KeepFilledPrefix(slots, n, i + 1);
      if i < n {
        assert [slots[i]] + slots[i + 1..n] == slots[i..n];
      }
    }
  }

  /** `row` holds `images` in its first slots and nothing in the others. */
  predicate HoldsImages(row: Row, images: seq<Image>) {
    && |images| <= LastSlot
    && forall j :: 1 <= j <= LastSlot ==>
         && Field(row, ImageKey(j)) == (if j <= |images| then images[j - 1].path else "")
         && Field(row, AltKey(j)) == (if j <= |images| then images[j - 1].alt else "")
  }

  lemma ToRowHoldsImages(m: Memorial)
    requires |m.images| <= LastSlot
    ensures HoldsImages(ToRow(m), m.images)
  {
    var text, cols := TextColumns(m), ImageColumns(m.images, 1);
    forall j | 1 <= j <= LastSlot
      ensures Field(ToRow(m), ImageKey(j)) == Field(cols, ImageKey(j))
      ensures Field(ToRow(m), AltKey(j)) == Field(cols, AltKey(j))
    {
      FieldOfMerge(text, cols, ImageKey(j));
      FieldOfMerge(text, cols, AltKey(j));
    }
    forall j | 1 <= j <= LastSlot
      ensures Field(cols, ImageKey(j)) == (if j <= |m.images| then m.images[j - 1].path else "")
      ensures Field(cols, AltKey(j)) == (if j <= |m.images| then m.images[j - 1].alt else "")
    {
      ImageColumnsLookup(m.images, 1, j);
    }
  }

  /** The slots of a row holding trimmed images with non-blank paths. */
  lemma HeldSlot(row: Row, images: seq<Image>, k: nat)
    requires HoldsImages(row, images) && AllStripped(images)
    requires k < LastSlot
    ensures Slots(row)[k] == if k < |images| then images[k] else Image("", "")
  {
    assert Slots(row)[k] == Image(Strip(Field(row, ImageKey(k + 1))), Strip(Field(row, AltKey(k + 1))));
    if k < |images| {
      StripOfStripped(images[k].path);
      StripOfStripped(images[k].alt);
    }
  }

  /** The images read back from a row holding trimmed images with
      non-blank paths are those images, in order. */
  lemma CollectHeld(row: Row, images: seq<Image>)
    requires HoldsImages(row, images) && AllStripped(images)
    requires forall k :: 0 <= k < |images| ==> images[k].path != ""
    ensures CollectImages(row) == images
  {
    var slots, n := Slots(row), |images|;
    forall k | 0 <= k < LastSlot
      ensures slots[k] == if k < n then images[k] else Image("", "")
    {
      HeldSlot(row, images, k);
    }
    KeepFilledPrefix(slots, n, 0);
    PrefixIs(slots, images);
  }

  lemma PrefixIs(a: seq<Image>, b: seq<Image>)
    requires |b| <= |a|
    requires forall k :: 0 <= k < |b| ==> a[k] == b[k]
    ensures a[0..|b|] == b
  {
  }

  /** Reading back the row of a well-formed record whose slug is given
      explicitly yields that record: normalisation loses nothing. */
  lemma NormalizeToRow(m: Memorial)
    requires WellFormed(m)
    requires m.slug != "" && IsStripped(m.slug)
    ensures NormalizeRow(ToRow(m)) == Some(m)
  {
    var text := TextColumns(m);
    assert text[NameColumn] == m.name && text[SlugColumn] == m.slug;
    assert text[YearsColumn] == m.years && text[LocationColumn] == m.location;
    assert text[StoryColumn] == m.story;
    TextCell(m, NameColumn, m.name);
    TextCell(m, SlugColumn, m.slug);
    TextCell(m, YearsColumn, m.years);
    TextCell(m, LocationColumn, m.location);
    TextCell(m, StoryColumn, m.story);
    ToRowHoldsImages(m);
    CollectHeld(ToRow(m), m.images);
  }

  lemma TextCell(m: Memorial, key: string, value: string)
    requires |m.images| <= LastSlot
    requires key in TextColumns(m) && TextColumns(m)[key] == value
    requires IsStripped(value)
    ensures Cell(ToRow(m), key) == value
  {
    FieldOfMerge(TextColumns(m), ImageColumns(m.images, 1), key);
    StripOfStripped(value);
  }
}

=== FILE: render.dfy ===
/** The HTML fragments a memorial page and the map page are assembled
    from: the years paragraph, the photo figures, the story paragraphs and
    the map list items. Each builder is paired with a reader that takes its
    output apart again; the lemmas say what the reader recovers: the years,
    or nothing when they are blank; the non-blank lines of the story,
    stripped, in order; each photo with the alt text it shows; and the name
    and location of a map item. */
module Render {

  import opened Wrappers
  import opened Text
  import opened Html
  import Records

  /** The separator `"\n    ".join` puts between figures and paragraphs. */
  const Indent := "\n    "

  // ---------------------------------------------------------------------
  // The years paragraph (`write_page`)
  // ---------------------------------------------------------------------

  const YearsOpen := "<p class=\"small\">"
  const ParagraphOpen := "<p>"
  const ParagraphClose := "</p>"

  /** `years_html`: a small paragraph holding the escaped years, or nothing
      when the years are blank. */
  function YearsHtml(years: string): (r: string)
    ensures r == "" <==> years == ""
  {
    if years != "" then YearsOpen + Escape(years) + ParagraphClose else ""
  }

  /** The years paragraph is there exactly when the years are, and it
      reads back as the years themselves. */
  lemma YearsHtmlReads(years: string)
    ensures ReadTexts(YearsHtml(years), YearsOpen, ParagraphClose, "")
            == Some(if years == "" then [] else [years])
  {
    if years == "" {
      ReadTextsEmpty(YearsOpen, ParagraphClose, "");
    } else {
      ReadEscaped([years], YearsOpen, ParagraphClose, "");
      assert EscapeAll([years]) == [Escape(years)];
      assert WrapAll([Escape(years)], YearsOpen, ParagraphClose) == [YearsHtml(years)];
    }
  }

  /** Before decoding, the years paragraph holds the years escaped, so no
      quote, ampersand or angle bracket of the years reaches the page as
      markup. */
  lemma YearsHtmlElements(years: string)
    ensures ParseElements(YearsHtml(years), YearsOpen, ParagraphClose, "")
            == Some(if years == "" then [] else [Escape(years)])
  {
    if years != "" {
      var e := Escape(years);
      assert NoneOf(e, IsLt) by {
        assert NoneOf(e, IsMarkup);
      }
      ParseJoined([e], YearsOpen, ParagraphClose, "");
      assert WrapAll([e], YearsOpen, ParagraphClose) == [YearsHtml(years)];
    }
  }

  // ---------------------------------------------------------------------
  // The story (`build_story_html`)
  // ---------------------------------------------------------------------

  /** The stripped lines that are not blank, in order. */
  function NonBlankLines(lines: seq<string>): (r: seq<string>)
    ensures |r| <= |lines|
    ensures forall k :: 0 <= k < |r| ==> r[k] != "" && IsStripped(r[k])
  {
    if lines == [] then []
    else (if Strip(lines[0]) != "" then [Strip(lines[0])] else []) + NonBlankLines(lines[1..])
  }

  /** What one story line contributes: the stripped line, or nothing when
      it is blank. */
  function KeptLine(line: string): Option<string> {
    if Strip(line) != "" then Some(Strip(line)) else None
  }

  /** The kept lines are selected one line at a time: every non-blank line
      gives its stripped self, every blank line gives nothing, and the
      order is kept. */
  lemma {:induction false} NonBlankLinesSelect(lines: seq<string>)
    ensures NonBlankLines(lines) == Values(seq(|lines|, k requires 0 <= k < |lines| => KeptLine(lines[k])))
    decreases |lines|
  {
    if lines != [] {
      var kept := seq(|lines|, k requires 0 <= k < |lines| => KeptLine(lines[k]));
      var rest := lines[1..];
      NonBlankLinesSelect(rest);
      assert kept[1..] == seq(|rest|, k requires 0 <= k < |rest| => KeptLine(rest[k]));
      assert kept[0] == KeptLine(lines[0]);
    }
  }

  /** The paragraphs of a story: its non-blank lines, stripped. */
  function Paragraphs(story: string): seq<string> {
    NonBlankLines(SplitLines(story))
  }

  /** `build_story_html(story)`. */
  function StoryHtml(story: string): string {
    if story == "" then ""
    else
      var parts := EscapeAll(Paragraphs(story));
      if parts == [] then ""
      else JoinWith(WrapAll(parts, ParagraphOpen, ParagraphClose), Indent)
  }

  /** One `<p>` per non-blank line, in order, each holding that line
      stripped: reading the paragraphs back gives exactly the lines. */
  lemma StoryHtmlReads(story: string)
    ensures ReadTexts(StoryHtml(story), ParagraphOpen, ParagraphClose, Indent) == Some(Paragraphs(story))
  {
    var paras := Paragraphs(story);
    if story == "" || paras == [] {
      assert StoryHtml(story) == "";
      ReadTextsEmpty(ParagraphOpen, ParagraphClose, Indent);
      if story == "" {
        assert SplitLines(story) == [];
      }
    } else {
      ReadEscaped(paras, ParagraphOpen, ParagraphClose, Indent);
    }
  }

  /** Before decoding, each paragraph holds its line stripped and escaped. */
  lemma StoryHtmlElements(story: string)
    ensures ParseElements(StoryHtml(story), ParagraphOpen, ParagraphClose, Indent) == Some(EscapeAll(Paragraphs(story)))
  {
    var paras := Paragraphs(story);
    if story == "" || paras == [] {
      assert StoryHtml(story) == "";
      if story == "" {
        assert SplitLines(story) == [];
      }
      assert EscapeAll(paras) == [];
    } else {
      var escaped := EscapeAll(paras);
      forall k | 0 <= k < |escaped|
        ensures NoneOf(escaped[k], IsLt)
      {
        assert NoneOf(escaped[k], IsMarkup);
      }
      ParseJoined(escaped, ParagraphOpen, ParagraphClose, Indent);
    }
  }

  /** The story fragment is empty exactly when no line of the story holds
      anything but whitespace. */
  lemma StoryHtmlEmpty(story: string)
    ensures StoryHtml(story) == "" <==> Paragraphs(story) == []
  {
    var paras := Paragraphs(story);
    if story != "" && paras != [] {
      var wrapped := WrapAll(EscapeAll(paras), ParagraphOpen, ParagraphClose);
      assert forall k :: 0 <= k < |wrapped| ==> wrapped[k] != [];
    }
  }

  /** A story written as lines joined by `\n` has those lines' stripped,
      non-blank versions as its paragraphs. */
  lemma ParagraphsOfLines(lines: seq<string>)
    requires forall k :: 0 <= k < |lines| ==> NoneOf(lines[k], IsLineBreak)
    requires lines == [] || lines[|lines| - 1] != []
    ensures Paragraphs(JoinWith(lines, "\n")) == NonBlankLines(lines)
  {
    SplitJoinLines(lines);
  }

  // ---------------------------------------------------------------------
  // The photos (`build_images_html`)
  // ---------------------------------------------------------------------

  const FigureOpen := "<figure><img src=\"../../"
  const AltOpen := "\" alt=\""
  const FigureAttributes := "\" loading=\"lazy\" decoding=\"async\">"
  const FigureClose := "</figure>"

  /** The alt text written for a photo whose own alt text is blank. */
  const DefaultAlt := "Memorial photo"

  /** `alt_attr`: the escaped alt text, or the default when it is blank. */
  function AltAttribute(alt: string): (r: string)
    ensures NoneOf(r, IsMarkup)
  {
    if alt != "" then Escape(alt) else DefaultAlt
  }

  /** What a figure holds between `FigureOpen` and `FigureClose`. */
  function FigureBody(image: Records.Image): string {
    Escape(image.path) + AltOpen + AltAttribute(image.alt) + FigureAttributes
  }

  function FigureBodies(images: seq<Records.Image>): (r: seq<string>)
    ensures |r| == |images|
  {
    seq(|images|, k requires 0 <= k < |images| => FigureBody(images[k]))
  }

  /** `build_images_html(images)`: one figure per photo, in order. */
  function ImagesHtml(images: seq<Records.Image>): string {
    JoinWith(WrapAll(FigureBodies(images), FigureOpen, FigureClose), Indent)
  }

  /** The photo as the page presents it: its path, and its alt text or
      the default when that is blank. */
  function Shown(image: Records.Image): Records.Image {
    Records.Image(image.path, if image.alt != "" then image.alt else DefaultAlt)
  }

  function ShownAll(images: seq<Records.Image>): (r: seq<Records.Image>)
    ensures |r| == |images|
  {
    seq(|images|, k requires 0 <= k < |images| => Shown(images[k]))
  }

  /** Reads the body of one figure: the decoded `src` path (after the
      `../../` prefix) and the decoded `alt` text. */
  function DecodeFigure(body: string): Option<Records.Image> {
    var path := Before(body, IsQuote);
    var rest := body[|path|..];
    if !(AltOpen <= rest) then None
    else
      var tail := rest[|AltOpen|..];
      var alt := Before(tail, IsQuote);
      if tail[|alt|..] != FigureAttributes then None
      else Some(Records.Image(Unescape(path), Unescape(alt)))
  }

  /** Every body decoded; None if any of them is not a figure body. */
  function DecodeFigures(bodies: seq<string>): Option<seq<Records.Image>> {
    if bodies == [] then Some([])
    else
      match DecodeFigure(bodies[0])
      case None => None
      case Some(image) =>
        match DecodeFigures(bodies[1..])
        case None => None
        case Some(rest) => Some([image] + rest)
  }

  /** The photos a fragment shows, read back in order. */
  function ReadFigures(html: string): Option<seq<Records.Image>> {
    match ParseElements(html, FigureOpen, FigureClose, Indent)
    case None => None
    case Some(bodies) => DecodeFigures(bodies)
  }

  lemma DefaultAltPlain()
    ensures NoneOf(DefaultAlt, IsMarkup)
    ensures Unescape(DefaultAlt) == DefaultAlt
  {
    forall i | 0 <= i < |DefaultAlt|
      ensures DefaultAlt[i] != '&' && !IsMarkup(DefaultAlt[i])
    {
    }
    UnescapePlain(DefaultAlt);
  }

  lemma AltAttributeReads(alt: string)
    ensures Unescape(AltAttribute(alt)) == if alt != "" then alt else DefaultAlt
  {
    if alt != "" {
      UnescapeEscape(alt);
    } else {
      DefaultAltPlain();
    }
  }

  /** A figure body holds no `<`, so the element reader finds its end. */
  lemma FigureBodyHasNoLt(image: Records.Image)
    ensures NoneOf(FigureBody(image), IsLt)
  {
    var p, a := Escape(image.path), AltAttribute(image.alt);
    assert NoneOf(AltOpen, IsLt) && NoneOf(FigureAttributes, IsLt);
    NoneOfAppend(p, AltOpen, IsLt);
    NoneOfAppend(p + AltOpen, a, IsLt);
    NoneOfAppend(p + AltOpen + a, FigureAttributes, IsLt);
  }

  /** The reader splits a figure body at its quotes. */
  lemma DecodeFigureOf(p: string, a: string)
    requires NoneOf(p, IsQuote) && NoneOf(a, IsQuote)
    ensures DecodeFigure(p + AltOpen + a + FigureAttributes) == Some(Records.Image(Unescape(p), Unescape(a)))
  {
    var tail := a + FigureAttributes;
    var body := p + AltOpen + a + FigureAttributes;
    assert body == p + (AltOpen + tail);
    BeforeStopsAt(p, AltOpen + tail, IsQuote);
    assert body[|p|..] == AltOpen + tail;
    assert (AltOpen + tail)[|AltOpen|..] == tail;
    BeforeStopsAt(a, FigureAttributes, IsQuote);
    assert tail[|a|..] == FigureAttributes;
  }

  /** A figure body decodes to the photo as shown. */
  lemma DecodeFigureBody(image: Records.Image)
    ensures DecodeFigure(FigureBody(image)) == Some(Shown(image))
  {
    var p, a := Escape(image.path), AltAttribute(image.alt);
    assert NoneOf(p, IsQuote) && NoneOf(a, IsQuote);
    DecodeFigureOf(p, a);
    UnescapeEscape(image.path);
    AltAttributeReads(image.alt);
  }

  /** Bodies that each decode read back as the list of what they decode to. */
  lemma {:induction false} DecodeFiguresEach(bodies: seq<string>, shown: seq<Records.Image>)
    requires |bodies| == |shown|
    requires forall k :: 0 <= k < |bodies| ==> DecodeFigure(bodies[k]) == Some(shown[k])
    ensures DecodeFigures(bodies) == Some(shown)
    decreases |bodies|
  {
    if bodies != [] {
      assert DecodeFigure(bodies[0]) == Some(shown[0]);
      DecodeFiguresEach(bodies[1..], shown[1..]);
      assert [shown[0]] + shown[1..] == shown;
    }
  }

  lemma DecodeFigureBodies(images: seq<Records.Image>)
    ensures DecodeFigures(FigureBodies(images)) == Some(ShownAll(images))
  {
    var bodies, shown := FigureBodies(images), ShownAll(images);
    forall k | 0 <= k < |bodies|
      ensures DecodeFigure(bodies[k]) == Some(shown[k])
    {
      DecodeFigureBody(images[k]);
    }
    DecodeFiguresEach(bodies, shown);
  }

  /** One figure per photo, in order: reading the fragment back gives each
      photo's path and its alt text, or the default alt where that was
      blank. */
  lemma ImagesHtmlReads(images: seq<Records.Image>)
    ensures ReadFigures(ImagesHtml(images)) == Some(ShownAll(images))
  {
    ImagesHtmlElements(images);
    DecodeFigureBodies(images);
  }

  /** Before decoding, each figure holds the escaped path and the alt
      attribute of its photo. */
  lemma ImagesHtmlElements(images: seq<Records.Image>)
    ensures ParseElements(ImagesHtml(images), FigureOpen, FigureClose, Indent) == Some(FigureBodies(images))
  {
    var bodies := FigureBodies(images);
    forall k | 0 <= k < |bodies|
      ensures NoneOf(bodies[k], IsLt)
    {
      FigureBodyHasNoLt(images[k]);
    }
    ParseJoined(bodies, FigureOpen, FigureClose, Indent);
  }

  /** No photos, no fragment; any photo, a fragment. */
  lemma ImagesHtmlEmpty(images: seq<Records.Image>)
    ensures ImagesHtml(images) == "" <==> images == []
  {
    var wrapped := WrapAll(FigureBodies(images), FigureOpen, FigureClose);
    assert forall k :: 0 <= k < |wrapped| ==> wrapped[k] != [];
  }

  // ---------------------------------------------------------------------
  // The map list (`write_map`)
  // ---------------------------------------------------------------------

  const ItemOpen := "<li>\n        <strong><a href=\"./people/"
  const LinkEnd := "/\">"
  const NameEnd := "</a></strong>\n        "
  const LocationTag := "<div class=\"small\">"
  const LocationLabel := "Location: "
  const LocationClose := "</div>"
  const ItemClose := "\n      </li>"

  /** `loc_div`: the location line, present only when the location is
      not blank. */
  function LocationDiv(location: string): string {
    var loc := if location != "" then Escape(location) else "";
    if loc != "" then LocationTag + LocationLabel + loc + LocationClose else ""
  }

  /** One `<li>` of the map: a link to the memorial's page under its slug,
      showing the escaped name, and then the location line. The slug goes
      in as it is. */
  function MapItem(m: Records.Memorial): string {
    ItemOpen + m.slug + LinkEnd + Escape(m.name) + NameEnd + LocationDiv(m.location) + ItemClose
  }

  /** `''.join(items)`: the items of the records, in order. */
  function MapList(records: seq<Records.Memorial>): string {
    if records == [] then "" else MapItem(records[0]) + MapList(records[1..])
  }

  /** What a reader of the map sees in one item. */
  datatype ItemView = ItemView(name: string, location: string)

  predicate IsGt(c: char) { c == '>' }

  /** Reads the location line from the end of an item's text: the text
      before it and the decoded location, or a blank location when there
      is no such line. */
  function ReadLocation(a: string): Option<(string, string)> {
    if !EndsWith(a, LocationClose) then Some((a, ""))
    else
      var t := DropEnd(a, LocationClose);
      var text := AfterLast(t, IsGt);
      var before := t[..|t| - |text|];
      if !(LocationLabel <= text) || !EndsWith(before, LocationTag) then None
      else Some((DropEnd(before, LocationTag), Unescape(text[|LocationLabel|..])))
  }

  /** Reads the decoded name at the end of an item's text: what follows
      the last `>` before the closing of the link. */
  function ReadName(b: string): Option<string> {
    if !EndsWith(b, NameEnd) then None
    else Some(Unescape(AfterLast(DropEnd(b, NameEnd), IsGt)))
  }

  /** Reads an item from its end, so that whatever the slug holds does not
      matter. */
  function ReadItem(item: string): Option<ItemView> {
    if !EndsWith(item, ItemClose) then None
    else
      match ReadLocation(DropEnd(item, ItemClose))
      case None => None
      case Some((b, location)) =>
        match ReadName(b)
        case None => None
        case Some(name) => Some(ItemView(name, location))
  }

  /** An item shows a location line when it ends with one. */
  predicate ShowsLocation(item: string) {
    EndsWith(item, LocationClose + ItemClose)
  }

  lemma ReadNameOf(head: string, name: string)
    ensures ReadName(head + LinkEnd + Escape(name) + NameEnd) == Some(name)
  {
    var n := Escape(name);
    var b := head + LinkEnd + n + NameEnd;
    EndsWithAppend(head + LinkEnd + n, NameEnd);
    assert head + LinkEnd + n == (head + "/\"") + ['>'] + n;
    assert NoneOf(n, IsGt);
    AfterLastOf(head + "/\"", '>', n, IsGt);
    UnescapeEscape(name);
  }

  lemma ReadLocationOfText(b: string, loc: string)
    requires NoneOf(loc, IsGt)
    ensures ReadLocation(b + LocationTag + LocationLabel + loc + LocationClose) == Some((b, Unescape(loc)))
  {
    LocationTagPieces();
    var t := b + LocationTag + LocationLabel + loc;
    EndsWithAppend(t, LocationClose);
    var text := LocationLabel + loc;
    var head := b + LocationTagStart;
    Assoc(b, LocationTagStart, ['>']);
    Assoc(b + LocationTag, LocationLabel, loc);
    assert t == head + ['>'] + text;
    NoneOfAppend(LocationLabel, loc, IsGt);
    AfterLastOf(head, '>', text, IsGt);
    assert t[..|t| - |text|] == b + LocationTag;
    EndsWithAppend(b, LocationTag);
    assert text[|LocationLabel|..] == loc;
  }

  const LocationTagStart := "<div class=\"small\""

  /** The location tag ends with its only `>`, and the label holds none. */
  lemma LocationTagPieces()
    ensures LocationTag == LocationTagStart + ['>']
    ensures NoneOf(LocationLabel, IsGt)
  {
    forall i | 0 <= i < |LocationLabel|
      ensures !IsGt(LocationLabel[i])
    {
    }
  }

  lemma ReadLocationOf(b: string, location: string)
    requires location != ""
    ensures ReadLocation(b + LocationDiv(location)) == Some((b, location))
  {
    var loc := Escape(location);
    assert b + LocationDiv(location) == b + LocationTag + LocationLabel + loc + LocationClose;
    ReadLocationOfText(b, loc);
    UnescapeEscape(location);
  }

  lemma ReadLocationNone(b: string)
    requires EndsWith(b, NameEnd)
    ensures ReadLocation(b) == Some((b, ""))
  {
    assert b[|b| - 1] == ' ';
  }

  /** Reading an item back gives the record's name and its location (blank
      when there is none), whatever the slug. */
  lemma ReadMapItem(m: Records.Memorial)
    ensures ReadItem(MapItem(m)) == Some(ItemView(m.name, m.location))
  {
    var head := ItemOpen + m.slug;
    var b := head + LinkEnd + Escape(m.name) + NameEnd;
    var a := b + LocationDiv(m.location);
    assert MapItem(m) == a + ItemClose;
    EndsWithAppend(a, ItemClose);
    if m.location == "" {
      assert a == b;
      EndsWithAppend(head + LinkEnd + Escape(m.name), NameEnd);
      ReadLocationNone(b);
    } else {
      ReadLocationOf(b, m.location);
    }
    ReadNameOf(head, m.name);
  }

  /** An item has a location line exactly when the record's location is
      not blank. */
  lemma MapItemShowsLocation(m: Records.Memorial)
    ensures ShowsLocation(MapItem(m)) <==> m.location != ""
  {
    var b := ItemOpen + m.slug + LinkEnd + Escape(m.name) + NameEnd;
    var item := MapItem(m);
    if m.location == "" {
      assert item == b + ItemClose;
      var n := |item| - |LocationClose + ItemClose|;
      assert item[|item| - |ItemClose| - 1] == ' ';
      assert (LocationClose + ItemClose)[|LocationClose| - 1] == '>';
    } else {
      var c := ItemOpen + m.slug + LinkEnd + Escape(m.name) + NameEnd + LocationTag + LocationLabel + Escape(m.location);
      assert item == c + (LocationClose + ItemClose);
      EndsWithAppend(c, LocationClose + ItemClose);
    }
  }

  /** The map lists the records of two inputs laid end to end as the items
      of the first, then those of the second. */
  lemma {:induction false} MapListAppend(a: seq<Records.Memorial>, b: seq<Records.Memorial>)
    ensures MapList(a + b) == MapList(a) + MapList(b)
    decreases |a|
  {
    if a == [] {
      assert a + b == b;
    } else {
      assert (a + b)[0] == a[0];
      assert (a + b)[1..] == a[1..] + b;
      MapListAppend(a[1..], b);
    }
  }

  /** A piece without `<` adds no tag. */
  lemma CountPlain(piece: string, rest: string, pat: string)
    requires |pat| == 4 && pat[0] == '<'
    requires '<' !in piece
    ensures Occurrences(piece + rest, pat) == Occurrences(rest, pat)
  {
    OccurrencesCons(piece, rest, pat);
  }

  /** A piece opening with its only `<` adds one tag when it starts with
      the pattern. */
  lemma CountTag(piece: string, rest: string, pat: string)
    requires |pat| == 4 && pat[0] == '<'
    requires TagPiece(piece)
    ensures Occurrences(piece + rest, pat) == (if pat == piece[..4] then 1 else 0) + Occurrences(rest, pat)
  {
    OccurrencesCons(piece, rest, pat);
  }

  /** The closing part of an item holds no tag that is counted. */
  lemma ItemCloseCount(pat: string)
    requires |pat| == 4 && pat[0] == '<' && pat[1] != '/'
    ensures Occurrences(ItemClose, pat) == 0
  {
    TailPieces();
    CountTag(ListClose, "", pat);
    CountPlain(ItemBreak, ListClose, pat);
  }

  const ItemBreak := "\n      "
  const ListClose := "</li>"
  const LocationOpening := "<div class=\"small\">Location: "

  /** The literal pieces of the closing part of an item. */
  lemma TailPieces()
    ensures ItemClose == ItemBreak + ListClose && ListClose + "" == ListClose
    ensures '<' !in ItemBreak
    ensures TagPiece(ListClose) && ListClose[1] == '/'
    ensures LocationTag + LocationLabel == LocationOpening
    ensures TagPiece(LocationOpening) && LocationOpening[..4] == "<div"
    ensures TagPiece(LocationClose) && LocationClose[1] == '/'
  {
    forall i | 0 < i < |ListClose|
      ensures ListClose[i] != '<'
    {
    }
    forall i | 0 < i < |LocationOpening|
      ensures LocationOpening[i] != '<'
    {
    }
    forall i | 0 < i < |LocationClose|
      ensures LocationClose[i] != '<'
    {
    }
  }

  /** The location line holds one `<div` and nothing else that is counted. */
  lemma LocationDivCount(loc: string, rest: string, pat: string)
    requires |pat| == 4 && pat[0] == '<' && pat[1] != '/'
    requires '<' !in loc
    ensures Occurrences(LocationTag + LocationLabel + loc + LocationClose + rest, pat)
            == (if pat == "<div" then 1 else 0) + Occurrences(rest, pat)
  {
    TailPieces();
    var t1 := LocationClose + rest;
    var t0 := loc + t1;
    CountTag(LocationClose, rest, pat);
    CountPlain(loc, t1, pat);
    CountTag(LocationOpening, t0, pat);
    Assoc(LocationOpening + loc, LocationClose, rest);
    Assoc(LocationOpening, loc, t1);
  }

  /** The location line in its two shapes. */
  lemma LocationDivOf(location: string)
    ensures location == "" ==> LocationDiv(location) == ""
    ensures location != "" ==> '<' !in Escape(location)
    ensures location != "" ==> LocationDiv(location) == LocationTag + LocationLabel + Escape(location) + LocationClose
  {
    if location != "" {
      assert NoneOf(Escape(location), IsMarkup);
    }
  }

  /** The tail of an item holds a `<div` only for a location, and no `<li>`. */
  lemma ItemTailCount(location: string, pat: string)
    requires |pat| == 4 && pat[0] == '<' && pat[1] != '/'
    ensures Occurrences(LocationDiv(location) + ItemClose, pat)
            == if pat == "<div" && location != "" then 1 else 0
  {
    if location != "" {
      LocatedTailCount(location, pat);
    } else {
      assert LocationDiv(location) == "";
      assert LocationDiv(location) + ItemClose == ItemClose;
      ItemCloseCount(pat);
    }
  }

  /** The tail of an item with a location holds its one `<div`. */
  lemma LocatedTailCount(location: string, pat: string)
    requires |pat| == 4 && pat[0] == '<' && pat[1] != '/'
    requires location != ""
    ensures Occurrences(LocationDiv(location) + ItemClose, pat) == if pat == "<div" then 1 else 0
  {
    LocationDivOf(location);
    ItemCloseCount(pat);
    LocationDivCount(Escape(location), ItemClose, pat);
  }

  /** A piece whose only `<` opens it, followed by at least a tag name. */
  predicate TagPiece(piece: string) {
    4 <= |piece| && piece[0] == '<' && forall i :: 0 < i < |piece| ==> piece[i] != '<'
  }

  const LiTag := "<li>\n        "
  const StrongTag := "<strong>"
  const LinkTag := "<a href=\"./people/"

  /** The opening of an item is the `<li>`, `<strong>` and `<a` tags in turn. */
  lemma ItemOpenSplit()
    ensures ItemOpen == LiTag + StrongTag + LinkTag
  {
    var t := LiTag + StrongTag + LinkTag;
    assert |t| == |ItemOpen|;
    forall i | 0 <= i < |t|
      ensures t[i] == ItemOpen[i]
    {
    }
  }

  /** The three opening tags each hold only their leading `<`. */
  lemma ItemOpenPieces()
    ensures ItemOpen == LiTag + StrongTag + LinkTag
    ensures TagPiece(LiTag) && LiTag[..4] == "<li>"
    ensures TagPiece(StrongTag) && StrongTag[1] == 's'
    ensures TagPiece(LinkTag) && LinkTag[1] == 'a'
  {
    ItemOpenSplit();
    forall i | 0 < i < |LiTag|
      ensures LiTag[i] != '<'
    {
    }
    forall i | 0 < i < |StrongTag|
      ensures StrongTag[i] != '<'
    {
    }
    forall i | 0 < i < |LinkTag|
      ensures LinkTag[i] != '<'
    {
    }
  }

  /** The opening tags of an item: one `<li>`, then `<strong>` and `<a`. */
  lemma ItemOpenCount(rest: string, pat: string)
    requires |pat| == 4 && pat[0] == '<' && pat[1] != 's' && pat[1] != 'a'
    ensures Occurrences(ItemOpen + rest, pat) == (if pat == "<li>" then 1 else 0) + Occurrences(rest, pat)
  {
    ItemOpenPieces();
    var t2 := LinkTag + rest;
    var t1 := StrongTag + t2;
    CountTag(LinkTag, rest, pat);
    CountTag(StrongTag, t2, pat);
    CountTag(LiTag, t1, pat);
    Assoc(LiTag + StrongTag, LinkTag, rest);
    Assoc(LiTag, StrongTag, t2);
  }

  const LinkClose := "</a>"
  const StrongClose := "</strong>\n        "

  /** The literal pieces that close the name of an item. */
  lemma NamePieces()
    ensures NameEnd == LinkClose + StrongClose
    ensures TagPiece(LinkClose) && LinkClose[1] == '/'
    ensures TagPiece(StrongClose) && StrongClose[1] == '/'
    ensures '<' !in LinkEnd
  {
    forall i | 0 < i < |LinkClose|
      ensures LinkClose[i] != '<'
    {
    }
    forall i | 0 < i < |StrongClose|
      ensures StrongClose[i] != '<'
    {
    }
  }

  /** The link of an item adds no counted tag, provided the slug and the
      name hold no `<`. */
  lemma LinkCount(slug: string, n: string, tail: string, pat: string)
    requires |pat| == 4 && pat[0] == '<' && pat[1] != '/'
    requires '<' !in slug && '<' !in n
    ensures Occurrences(slug + LinkEnd + n + NameEnd + tail, pat) == Occurrences(tail, pat)
  {
    NamePieces();
    var t7 := StrongClose + tail;
    var t6 := LinkClose + t7;
    var t5 := n + t6;
    var t4 := LinkEnd + t5;
    CountTag(StrongClose, tail, pat);
    CountTag(LinkClose, t7, pat);
    CountPlain(n, t6, pat);
    CountPlain(LinkEnd, t5, pat);
    CountPlain(slug, t4, pat);
    Assoc(LinkClose, StrongClose, tail);
    Assoc(slug + LinkEnd + n, NameEnd, tail);
    Assoc(slug + LinkEnd, n, t6);
    Assoc(slug, LinkEnd, t5);
  }

  /** The opening of an item holds one `<li>`, provided the slug and the
      name hold no `<`. */
  lemma ItemHeadCount(slug: string, n: string, tail: string, pat: string)
    requires |pat| == 4 && pat[0] == '<' && pat[1] != '/' && pat[1] != 's' && pat[1] != 'a'
    requires '<' !in slug && '<' !in n
    ensures Occurrences(ItemOpen + slug + LinkEnd + n + NameEnd + tail, pat)
            == (if pat == "<li>" then 1 else 0) + Occurrences(tail, pat)
  {
    var rest := slug + LinkEnd + n + NameEnd + tail;
    LinkCount(slug, n, tail, pat);
    ItemOpenCount(rest, pat);
    Assoc(ItemOpen + slug + LinkEnd + n, NameEnd, tail);
    Assoc(ItemOpen + slug + LinkEnd, n, NameEnd + tail);
    Assoc(ItemOpen + slug, LinkEnd, n + (NameEnd + tail));
    Assoc(ItemOpen, slug, LinkEnd + (n + (NameEnd + tail)));
    Assoc(slug + LinkEnd + n, NameEnd, tail);
    Assoc(slug + LinkEnd, n, NameEnd + tail);
    Assoc(slug, LinkEnd, n + (NameEnd + tail));
  }

  /** Each item opens one `<li>`, and holds one `<div` exactly when the
      record has a location, provided the slug holds no `<`. */
  lemma MapItemCounts(m: Records.Memorial)
    requires '<' !in m.slug
    ensures Occurrences(MapItem(m), "<li>") == 1
    ensures Occurrences(MapItem(m), "<div") == if m.location != "" then 1 else 0
  {
    var tail := LocationDiv(m.location) + ItemClose;
    assert MapItem(m) == ItemOpen + m.slug + LinkEnd + Escape(m.name) + NameEnd + tail;
    var n := Escape(m.name);
    assert NoneOf(n, IsMarkup);
    assert MapItem(m) == ItemOpen + m.slug + LinkEnd + n + NameEnd + tail;
    ItemHeadCount(m.slug, n, tail, "<li>");
    ItemTailCount(m.location, "<li>");
    ItemHeadCount(m.slug, n, tail, "<div");
    ItemTailCount(m.location, "<div");
  }

  /** The number of records with a location. */
  function Located(records: seq<Records.Memorial>): (r: nat)
    ensures r <= |records|
  {
    if records == [] then 0
    else (if records[0].location != "" then 1 else 0) + Located(records[1..])
  }

  lemma ItemEndsClear(m: Records.Memorial)
    ensures forall i :: 0 <= i < |MapItem(m)| && |MapItem(m)| - 4 < i ==> MapItem(m)[i] != '<'
  {
    var item := MapItem(m);
    var front := ItemOpen + m.slug + LinkEnd + Escape(m.name) + NameEnd + LocationDiv(m.location) + "\n      </";
    assert item == front + "li>";
  }

  /** The map holds one `<li>` per record and one location line per
      record with a location, provided no slug holds a `<`. */
  lemma {:induction false} MapListCounts(records: seq<Records.Memorial>)
    requires forall k :: 0 <= k < |records| ==> '<' !in records[k].slug
    ensures Occurrences(MapList(records), "<li>") == |records|
    ensures Occurrences(MapList(records), "<div") == Located(records)
    decreases |records|
  {
    if records != [] {
      var item, rest := MapItem(records[0]), MapList(records[1..]);
      MapListCounts(records[1..]);
      MapItemCounts(records[0]);
      ItemEndsClear(records[0]);
      OccurrencesAppend(item, rest, "<li>");
      OccurrencesAppend(item, rest, "<div");
    }
  }
}

=== FILE: slug.dfy ===
/** `slugify` of the page builder: the directory name a memorial page gets
    when its row gives no slug of its own. */
module Slug {

  import opened Text

  /** The regular-expression class `[a-z0-9]`. */
  predicate IsAlnum(c: char) {
    ('a' <= c <= 'z') || ('0' <= c <= '9')
  }

  predicate NotAlnum(c: char) {
    !IsAlnum(c)
  }

  predicate IsHyphen(c: char) {
    c == '-'
  }

  predicate NotAscii(c: char) {
    c as int >= 128
  }

  /** No two hyphens stand next to each other. */
  predicate NoDoubleHyphen(s: string) {
    forall i :: 0 <= i < |s| - 1 ==> !(s[i] == '-' && s[i + 1] == '-')
  }

  /** The shape of a slug: letters, digits and single inner hyphens. */
  predicate IsSlug(s: string) {
    && (forall i :: 0 <= i < |s| ==> IsAlnum(s[i]) || s[i] == '-')
    && Trimmed(s, IsHyphen)
    && NoDoubleHyphen(s)
  }

  /** Step 2 of `slugify`, `normalize("NFKD", s).encode("ascii", "ignore")`,
      on characters that have no decomposition: every non-ASCII character
      is dropped. */
  function AsciiFold(s: string): (r: string)
    ensures forall i :: 0 <= i < |r| ==> !NotAscii(r[i])
  {
    RemoveLeavesNone(s, NotAscii);
    Remove(s, NotAscii)
  }

  /** `re.sub(P + "+", "-", s)` for a character class `P`: every maximal
      run of characters of the class becomes a single hyphen. When the
      hyphen itself belongs to the class, no two hyphens remain adjacent. */
  function SquashRuns(s: string, p: char -> bool): (r: string)
    ensures forall i :: 0 <= i < |r| ==> r[i] == '-' || !p(r[i])
    ensures p('-') ==> NoDoubleHyphen(r)
    ensures s != [] && !p(s[0]) ==> r != [] && r[0] == s[0]
    ensures s != [] && p(s[0]) ==> r != [] && r[0] == '-'
    decreases |s|
  {
    if s == [] then []
    else if p(s[0]) then
      var rest := TrimLeft(s, p);
      "-" + SquashRuns(rest, p)
    else [s[0]] + SquashRuns(s[1..], p)
  }

  /** Python's `slugify`: strip, lowercase, fold to ASCII, turn runs of
      characters outside `[a-z0-9]` into one hyphen, strip hyphens at both
      ends, then collapse runs of two or more hyphens into one. */
  function Slugify(name: string): string {
    var folded := AsciiFold(Lower(Strip(name)));
    var runs := SquashRuns(folded, NotAlnum);
    var trimmed := Trim(runs, IsHyphen);
    SquashRuns(trimmed, IsHyphen)
  }

  /** The run squashing leaves a string alone when its class characters
      are single hyphens already. */
  lemma {:induction false} SquashKeeps(s: string, p: char -> bool)
    requires forall i :: 0 <= i < |s| && p(s[i]) ==> s[i] == '-'
    requires forall i :: 0 <= i < |s| - 1 ==> !(p(s[i]) && p(s[i + 1]))
    ensures SquashRuns(s, p) == s
    decreases |s|
  {
    if s != [] {
      SquashKeeps(s[1..], p);
      if p(s[0]) {
        assert TrimLeft(s, p) == s[1..] by {
          assert s[1..] == [] || !p(s[1..][0]);
        }
      }
      assert [s[0]] + s[1..] == s;
    }
  }

  /** The characters outside the class survive the run squashing, in
      order (when the hyphen belongs to the class). */
  lemma {:induction false} SquashRemove(s: string, p: char -> bool)
    requires p('-')
    ensures Remove(SquashRuns(s, p), p) == Remove(s, p)
    decreases |s|
  {
    if s != [] {
      if p(s[0]) {
        var rest := TrimLeft(s, p);
        assert s == s[..|s| - |rest|] + rest;
        RemoveAppend(s[..|s| - |rest|], rest, p);
        RemoveAll(s[..|s| - |rest|], p);
        RemoveAppend("-", SquashRuns(rest, p), p);
        SquashRemove(rest, p);
      } else {
        RemoveAppend([s[0]], SquashRuns(s[1..], p), p);
        SquashRemove(s[1..], p);
      }
    }
  }

  /** An inner run of class characters becomes exactly one hyphen: a run
      followed by a character outside the class (or by nothing) squashes
      to a hyphen in front of what follows. */
  lemma SquashSeparator(run: string, rest: string, p: char -> bool)
    requires run != [] && forall i :: 0 <= i < |run| ==> p(run[i])
    requires rest == [] || !p(rest[0])
    ensures SquashRuns(run + rest, p) == "-" + SquashRuns(rest, p)
  {
    assert (run + rest)[0] == run[0];
    TrimLeftRun(run, rest, p);
  }

  /** Runs never reach across a character outside the class: a text that
      ends with such a character squashes on its own, whatever follows. */
  lemma {:induction false} SquashAppend(a: string, b: string, p: char -> bool)
    requires a == [] || !p(a[|a| - 1])
    ensures SquashRuns(a + b, p) == SquashRuns(a, p) + SquashRuns(b, p)
    decreases |a|
  {
    if a == [] {
      assert a + b == b;
    } else if p(a[0]) {
      var t := TrimLeft(a, p);
      var k := |a| - |t|;
      assert t != [];
      assert a == a[..k] + t;
      assert a + b == a[..k] + (t + b);
      assert (t + b)[0] == t[0];
      TrimLeftRun(a[..k], t + b, p);
      assert (a + b)[0] == a[0];
      assert t[|t| - 1] == a[|a| - 1];
      SquashAppend(t, b, p);
    } else {
      assert (a + b)[0] == a[0];
      assert (a + b)[1..] == a[1..] + b;
      SquashAppend(a[1..], b, p);
    }
  }

  /** A slice of a string of letters, digits and single hyphens is one
      too. */
  lemma SliceKeepsShape(s: string, lo: nat, hi: nat)
    requires lo <= hi <= |s|
    requires forall i :: 0 <= i < |s| ==> IsAlnum(s[i]) || s[i] == '-'
    requires NoDoubleHyphen(s)
    ensures forall i :: 0 <= i < hi - lo ==> IsAlnum(s[lo..hi][i]) || s[lo..hi][i] == '-'
    ensures NoDoubleHyphen(s[lo..hi])
  {
    var t := s[lo..hi];
    forall i | 0 <= i < |t| - 1
      ensures !(t[i] == '-' && t[i + 1] == '-')
    {
      assert t[i] == s[lo + i] && t[i + 1] == s[lo + i + 1];
    }
  }

  /** The hyphen-stripped runs are a slug already, so the last pass of
      `slugify` (collapsing `-{2,}`) never changes anything. */
  lemma TrimmedRunsAreSlug(name: string)
    ensures IsSlug(Trim(SquashRuns(AsciiFold(Lower(Strip(name))), NotAlnum), IsHyphen))
  {
    var runs := SquashRuns(AsciiFold(Lower(Strip(name))), NotAlnum);
    var lo, hi := TrimSlice(runs, IsHyphen);
    SliceKeepsShape(runs, lo, hi);
  }

  /** What `slugify` returns is letters `a`-`z`, digits and hyphens, with
      no hyphen at either end and no two hyphens in a row. */
  lemma SlugifyShape(name: string)
    ensures IsSlug(Slugify(name))
  {
    SlugifyLastPassIsNoOp(name);
  }

  /** Collapsing `-{2,}` after the hyphen strip is redundant. */
  lemma SlugifyLastPassIsNoOp(name: string)
    ensures Slugify(name) == Trim(SquashRuns(AsciiFold(Lower(Strip(name))), NotAlnum), IsHyphen)
  {
    var trimmed := Trim(SquashRuns(AsciiFold(Lower(Strip(name))), NotAlnum), IsHyphen);
    TrimmedRunsAreSlug(name);
    SquashKeeps(trimmed, IsHyphen);
  }

  lemma SlugHasNoSpaceAtEnds(t: string)
    requires IsSlug(t)
    ensures Strip(t) == t
  {
    assert IsStripped(t) by {
      if t != [] {
        assert IsAlnum(t[0]) && IsAlnum(t[|t| - 1]);
      }
    }
    StripOfStripped(t);
  }

  lemma SlugIsLowerAscii(t: string)
    requires IsSlug(t)
    ensures AsciiFold(Lower(t)) == t
  {
    assert Lower(t) == t by {
      forall i | 0 <= i < |t|
        ensures Lower(t)[i] == t[i]
      {
        assert IsAlnum(t[i]) || t[i] == '-';
      }
    }
    assert NoneOf(t, NotAscii) by {
      forall i | 0 <= i < |t|
        ensures !NotAscii(t[i])
      {
        assert IsAlnum(t[i]) || t[i] == '-';
      }
    }
    RemoveNone(t, NotAscii);
  }

  /** A slug is its own slug. */
  lemma SlugifyFixes(t: string)
    requires IsSlug(t)
    ensures Slugify(t) == t
  {
    SlugHasNoSpaceAtEnds(t);
    SlugIsLowerAscii(t);
    SquashKeeps(t, NotAlnum);
    TrimOfTrimmed(t, IsHyphen);
    SquashKeeps(t, IsHyphen);
  }

  /** `slugify` is idempotent. */
  lemma SlugifyIdempotent(name: string)
    ensures Slugify(Slugify(name)) == Slugify(name)
  {
    SlugifyShape(name);
    SlugifyFixes(Slugify(name));
  }

  /** A character that separates words: ASCII, and outside `[a-z0-9]` once
      lowercased (so not an ASCII letter or digit). */
  predicate IsSeparator(c: char) {
    !NotAscii(c) && NotAlnum(LowerChar(c))
  }

  /** A slug holds only ASCII characters, and its first and last characters
      are letters or digits. */
  lemma SlugEnds(t: string)
    requires IsSlug(t)
    ensures NoneOf(t, NotAscii)
    ensures t != [] ==> IsAlnum(t[0]) && IsAlnum(t[|t| - 1])
  {
    forall i | 0 <= i < |t|
      ensures !NotAscii(t[i])
    {
      assert IsAlnum(t[i]) || t[i] == '-';
    }
  }

  /** A word whose lowercase form is a slug is ASCII and has no whitespace
      at either end. */
  lemma WordEnds(w: string)
    requires IsSlug(Lower(w))
    ensures NoneOf(w, NotAscii)
    ensures IsStripped(w)
  {
    var l := Lower(w);
    SlugEnds(l);
    forall i | 0 <= i < |w|
      ensures !NotAscii(w[i])
    {
      assert !NotAscii(l[i]);
    }
    if w != [] {
      assert IsAlnum(l[0]) && IsAlnum(l[|w| - 1]);
    }
  }

  /** Lowercasing a lowercase slug changes nothing. */
  lemma LowerOfSlug(t: string)
    requires IsSlug(t)
    ensures Lower(t) == t
  {
    forall i | 0 <= i < |t|
      ensures Lower(t)[i] == t[i]
    {
      assert IsAlnum(t[i]) || t[i] == '-';
    }
  }

  /** A single word slugifies to its lowercase form whenever that form is
      already a slug: `Mary-Ann` gives `mary-ann`. */
  lemma SlugifyWord(w: string)
    requires IsSlug(Lower(w))
    ensures Slugify(w) == Lower(w)
  {
    var l := Lower(w);
    WordEnds(w);
    StripOfStripped(w);
    SlugHasNoSpaceAtEnds(l);
    LowerOfSlug(l);
    SlugifyFixes(l);
  }

  /** Run squashing on two slugs with a run of separators between them: the
      run becomes one hyphen and the slugs are kept. */
  lemma SquashJoin(l1: string, ls: string, l2: string)
    requires l1 != [] && IsSlug(l1) && l2 != [] && IsSlug(l2)
    requires ls != [] && forall i :: 0 <= i < |ls| ==> NotAlnum(ls[i])
    ensures SquashRuns(l1 + ls + l2, NotAlnum) == l1 + "-" + l2
  {
    SlugAlnumEnds(l1);
    SlugAlnumEnds(l2);
    SquashAround(l1, ls, l2, NotAlnum);
    SlugSquashes(l1);
    SlugSquashes(l2);
  }

  /** A run of class characters between two texts that end and start
      outside the class becomes one hyphen between their squashed forms. */
  lemma SquashAround(a: string, run: string, b: string, p: char -> bool)
    requires a != [] && !p(a[|a| - 1])
    requires b != [] && !p(b[0])
    requires run != [] && forall i :: 0 <= i < |run| ==> p(run[i])
    ensures SquashRuns(a + run + b, p) == SquashRuns(a, p) + "-" + SquashRuns(b, p)
  {
    var right := run + b;
    SquashSeparator(run, b, p);
    SquashAppend(a, right, p);
    assert a + run + b == a + right;
  }

  /** A non-empty slug starts and ends with a letter or digit. */
  lemma SlugAlnumEnds(t: string)
    requires t != [] && IsSlug(t)
    ensures IsAlnum(t[0]) && IsAlnum(t[|t| - 1])
  {
  }

  /** Run squashing leaves a slug alone: its only separators are single
      hyphens. */
  lemma SlugSquashes(t: string)
    requires IsSlug(t)
    ensures SquashRuns(t, NotAlnum) == t
  {
    SquashKeeps(t, NotAlnum);
  }

  /** The lowercase form of two words with separators between them. */
  lemma LowerJoin(w1: string, sep: string, w2: string)
    requires IsSlug(Lower(w1)) && IsSlug(Lower(w2))
    requires forall i :: 0 <= i < |sep| ==> IsSeparator(sep[i])
    ensures Lower(w1 + sep + w2) == Lower(w1) + Lower(sep) + Lower(w2)
    ensures NoneOf(Lower(w1 + sep + w2), NotAscii)
    ensures forall i :: 0 <= i < |sep| ==> NotAlnum(Lower(sep)[i])
  {
    var l1, ls, l2 := Lower(w1), Lower(sep), Lower(w2);
    LowerAppend(w1, sep);
    LowerAppend(w1 + sep, w2);
    SlugEnds(l1);
    SlugEnds(l2);
    assert NoneOf(ls, NotAscii) by {
      forall i | 0 <= i < |ls|
        ensures !NotAscii(ls[i])
      {
        assert IsSeparator(sep[i]);
      }
    }
    NoneOfAppend(l1, ls, NotAscii);
    NoneOfAppend(l1 + ls, l2, NotAscii);
  }

  /** Two words with a run of separators between them slugify to the two
      lowercase words joined by one hyphen, whatever the separators are:
      `Jane  Doe`, `Jane, Doe` and `JANE_DOE` all give `jane-doe`. */
  lemma SlugifyJoin(w1: string, sep: string, w2: string)
    requires Lower(w1) != [] && IsSlug(Lower(w1))
    requires Lower(w2) != [] && IsSlug(Lower(w2))
    requires sep != [] && forall i :: 0 <= i < |sep| ==> IsSeparator(sep[i])
    ensures Slugify(w1 + sep + w2) == Lower(w1) + "-" + Lower(w2)
  {
    var name := w1 + sep + w2;
    var l1, ls, l2 := Lower(w1), Lower(sep), Lower(w2);
    WordEnds(w1);
    WordEnds(w2);
    assert name[0] == w1[0] && name[|name| - 1] == w2[|w2| - 1];
    StripOfStripped(name);
    LowerJoin(w1, sep, w2);
    RemoveNone(l1 + ls + l2, NotAscii);
    SquashJoin(l1, ls, l2);
    var runs := l1 + "-" + l2;
    SlugEnds(l1);
    SlugEnds(l2);
    assert runs[0] == l1[0] && runs[|runs| - 1] == l2[|l2| - 1];
    TrimOfTrimmed(runs, IsHyphen);
    SlugifyLastPassIsNoOp(name);
  }

  /** A text that ends outside the class keeps its last character when
      its runs are squashed. */
  lemma {:induction false} SquashLast(s: string, p: char -> bool)
    requires s != [] && !p(s[|s| - 1])
    ensures SquashRuns(s, p) != [] && SquashRuns(s, p)[|SquashRuns(s, p)| - 1] == s[|s| - 1]
    decreases |s|
  {
    if p(s[0]) {
      var rest := TrimLeft(s, p);
      assert rest != [];
      assert rest[|rest| - 1] == s[|s| - 1];
      SquashLast(rest, p);
    } else if |s| > 1 {
      assert s[1..][|s| - 2] == s[|s| - 1];
      SquashLast(s[1..], p);
    }
  }

  /** What `slugify` makes of a stripped, lowercased ASCII name: its runs
      squashed and its end hyphens trimmed. */
  function SlugOfLowered(low: string): string {
    Trim(SquashRuns(low, NotAlnum), IsHyphen)
  }

  /** On an ASCII name the fold to ASCII changes nothing. */
  lemma SlugifyAscii(name: string)
    requires NoneOf(name, NotAscii)
    ensures Slugify(name) == SlugOfLowered(Lower(Strip(name)))
  {
    var low := Lower(Strip(name));
    var lo, hi := StripSlice(name);
    forall i | 0 <= i < |low|
      ensures !NotAscii(low[i])
    {
      assert Strip(name)[i] == name[lo + i];
    }
    RemoveNone(low, NotAscii);
    SlugifyLastPassIsNoOp(name);
  }

  /** Stripping and lowercasing a name followed by separators and a word
      that ends with a letter or digit. */
  lemma StripLowerAppend(x: string, sep: string, w: string)
    requires x != [] && !IsSpace(x[|x| - 1])
    requires w != [] && !IsSpace(w[|w| - 1])
    ensures Lower(Strip(x + sep + w)) == Lower(Strip(x)) + Lower(sep) + Lower(w)
    ensures Strip(x) != [] && Strip(x)[|Strip(x)| - 1] == x[|x| - 1]
  {
    assert x + sep + w == x + (sep + w);
    assert (sep + w)[|sep + w| - 1] == w[|w| - 1];
    StripAppend(x, sep + w);
    var sx := Strip(x);
    assert sx + (sep + w) == sx + sep + w;
    LowerAppend(sx, sep);
    LowerAppend(sx + sep, w);
  }

  /** Trimming two texts joined by one character, when neither ends with
      a character of the class. */
  lemma TrimJoin(a: string, m: char, b: string, q: char -> bool)
    requires a != [] && !q(a[|a| - 1])
    requires b != [] && !q(b[|b| - 1])
    ensures Trim(a + [m] + b, q) == Trim(a, q) + [m] + b
  {
    var tail := [m] + b;
    assert tail[|tail| - 1] == b[|b| - 1];
    TrimAppend(a, tail, q);
    Assoc(a, [m], b);
    Assoc(Trim(a, q), [m], b);
  }

  /** Squashing and hyphen-trimming a text that ends outside the class,
      a run of the class and a text that starts and ends outside it. */
  lemma TrimAround(a: string, run: string, b: string, p: char -> bool)
    requires p('-')
    requires a != [] && !p(a[|a| - 1])
    requires b != [] && !p(b[0]) && !p(SquashRuns(b, p)[|SquashRuns(b, p)| - 1])
    requires run != [] && forall i :: 0 <= i < |run| ==> p(run[i])
    ensures Trim(SquashRuns(a + run + b, p), IsHyphen)
            == Trim(SquashRuns(a, p), IsHyphen) + "-" + SquashRuns(b, p)
  {
    SquashAround(a, run, b, p);
    SquashLast(a, p);
    TrimJoin(SquashRuns(a, p), '-', SquashRuns(b, p), IsHyphen);
  }

  /** The runs and hyphen trim of a text ending with a letter or digit,
      followed by separators and a slug word. */
  lemma TrimRunsAppend(a: string, ls: string, lw: string)
    requires a != [] && IsAlnum(a[|a| - 1])
    requires ls != [] && forall i :: 0 <= i < |ls| ==> NotAlnum(ls[i])
    requires lw != [] && IsSlug(lw)
    ensures SlugOfLowered(a + ls + lw) == SlugOfLowered(a) + "-" + lw
  {
    SlugAlnumEnds(lw);
    SlugSquashes(lw);
    TrimAround(a, ls, lw, NotAlnum);
  }

  /** Separators are ASCII, and lowercased they are still outside
      `[a-z0-9]`. */
  lemma SeparatorsLower(sep: string)
    requires forall i :: 0 <= i < |sep| ==> IsSeparator(sep[i])
    ensures NoneOf(sep, NotAscii)
    ensures forall i :: 0 <= i < |Lower(sep)| ==> NotAlnum(Lower(sep)[i])
  {
    forall i | 0 <= i < |sep|
      ensures !NotAscii(sep[i]) && NotAlnum(Lower(sep)[i])
    {
      assert IsSeparator(sep[i]);
    }
  }

  /** A character that lowercases to a letter or digit is not
      whitespace. */
  lemma AlnumNotSpace(c: char)
    requires IsAlnum(LowerChar(c))
    ensures !IsSpace(c)
  {
  }

  /** One more word after a name that ends with a letter or digit: the
      separators become one hyphen and the word is appended lowercased to
      the slug of the name. Starting from `SlugifyWord` or `SlugifyJoin`,
      this gives the slug of a name of any number of words, as in
      `SlugifyMaryAnnSmith`. */
  lemma SlugifyAppend(x: string, sep: string, w: string)
    requires NoneOf(x, NotAscii)
    requires x != [] && IsAlnum(LowerChar(x[|x| - 1]))
    requires Lower(w) != [] && IsSlug(Lower(w))
    requires sep != [] && forall i :: 0 <= i < |sep| ==> IsSeparator(sep[i])
    ensures Slugify(x + sep + w) == Slugify(x) + "-" + Lower(w)
  {
    AppendAscii(x, sep, w);
    SlugifyAscii(x);
    SlugifyAscii(x + sep + w);
    AppendLowered(x, sep, w);
    SeparatorsLower(sep);
    TrimRunsAppend(Lower(Strip(x)), Lower(sep), Lower(w));
  }

  /** A name, separators and a slug word: all ASCII. */
  lemma AppendAscii(x: string, sep: string, w: string)
    requires NoneOf(x, NotAscii)
    requires IsSlug(Lower(w))
    requires forall i :: 0 <= i < |sep| ==> IsSeparator(sep[i])
    ensures NoneOf(x + sep + w, NotAscii)
  {
    WordEnds(w);
    SeparatorsLower(sep);
    NoneOfAppend(x, sep, NotAscii);
    NoneOfAppend(x + sep, w, NotAscii);
  }

  /** Stripped and lowercased, a name ending with a letter or digit,
      separators and a slug word are the three parts lowercased. */
  lemma AppendLowered(x: string, sep: string, w: string)
    requires x != [] && IsAlnum(LowerChar(x[|x| - 1]))
    requires Lower(w) != [] && IsSlug(Lower(w))
    ensures Lower(Strip(x + sep + w)) == Lower(Strip(x)) + Lower(sep) + Lower(w)
    ensures Lower(Strip(x)) != [] && IsAlnum(Lower(Strip(x))[|Lower(Strip(x))| - 1])
  {
    WordEnds(w);
    assert |w| == |Lower(w)|;
    AlnumNotSpace(x[|x| - 1]);
    StripLowerAppend(x, sep, w);
  }

  /** `Mary Ann Smith` written as its words and the spaces between them. */
  lemma MaryAnnSmithText()
    ensures "Mary" + " " + "Ann" == "Mary Ann"
    ensures "Mary Ann" + " " + "Smith" == "Mary Ann Smith"
    ensures Lower("Mary") == "mary" && Lower("Ann") == "ann" && Lower("Smith") == "smith"
    ensures "mary" + "-" + "ann" + "-" + "smith" == "mary-ann-smith"
  {
  }

  lemma MaryAnnSmithWords()
    ensures IsSlug("mary") && IsSlug("ann") && IsSlug("smith") && IsSeparator(' ')
    ensures NoneOf("Mary Ann", NotAscii) && IsAlnum(LowerChar("Mary Ann"[7]))
  {
  }

  /** A three-word name: `Mary Ann Smith` gives `mary-ann-smith`. */
  lemma SlugifyMaryAnnSmith()
    ensures Slugify("Mary Ann Smith") == "mary-ann-smith"
  {
    MaryAnnSmithText();
    MaryAnnSmithWords();
    SlugifyJoin("Mary", " ", "Ann");
    SlugifyAppend("Mary Ann", " ", "Smith");
  }

  /** `Jane Doe` written as its words and the space between them. */
  lemma JaneDoeText()
    ensures "Jane" + " " + "Doe" == "Jane Doe"
    ensures Lower("Jane") == "jane" && Lower("Doe") == "doe"
    ensures "jane" + "-" + "doe" == "jane-doe"
  {
  }

  lemma JaneDoeWords()
    ensures IsSlug("jane") && IsSlug("doe") && IsSeparator(' ')
  {
  }

  /** The space between two words becomes a hyphen. */
  lemma SlugifyJaneDoe()
    ensures Slugify("Jane Doe") == "jane-doe"
  {
    JaneDoeText();
    JaneDoeWords();
    SlugifyJoin("Jane", " ", "Doe");
  }

  /** Lowercasing commutes with cutting whitespace off the ends, as far as
      the letters and digits are concerned. */
  lemma LowerStripKeepsAlnum(name: string)
    ensures Remove(Lower(Strip(name)), NotAlnum) == Remove(Lower(name), NotAlnum)
  {
    var lo, hi := StripSlice(name);
    var low := Lower(name);
    assert Lower(Strip(name)) == low[lo..hi] by {
      forall k | 0 <= k < hi - lo
        ensures Lower(Strip(name))[k] == low[lo..hi][k]
      {
        assert Strip(name)[k] == name[lo + k];
      }
    }
    forall i | 0 <= i < |low| && !(lo <= i < hi)
      ensures NotAlnum(low[i])
    {
      assert IsSpace(name[i]);
    }
    RemoveOutside(low, lo, hi, NotAlnum);
  }

  /** The letters and digits of the slug of an ASCII name are exactly, in
      order, the letters and digits of the lowercased name: only separators
      change. */
  lemma SlugifyKeepsAlnum(name: string)
    requires NoneOf(name, NotAscii)
    ensures Remove(Slugify(name), NotAlnum) == Remove(Lower(name), NotAlnum)
  {
    var folded := AsciiFold(Lower(Strip(name)));
    var runs := SquashRuns(folded, NotAlnum);
    SlugifyLastPassIsNoOp(name);
    var lo, hi := TrimSlice(runs, IsHyphen);
    RemoveOutside(runs, lo, hi, NotAlnum);
    SquashRemove(folded, NotAlnum);
    RemoveSubsumed(Lower(Strip(name)), NotAscii, NotAlnum);
    LowerStripKeepsAlnum(name);
  }

  /** `slugify` returns the empty string for an ASCII name exactly when the
      name has no letter or digit. */
  lemma SlugifyEmptyIff(name: string)
    requires NoneOf(name, NotAscii)
    ensures Slugify(name) == [] <==> Remove(Lower(name), NotAlnum) == []
  {
    var slug := Slugify(name);
    SlugifyKeepsAlnum(name);
    SlugifyShape(name);
    if slug != [] {
      assert IsAlnum(slug[0]);
      assert Remove(slug, NotAlnum) != [];
    }
  }

  /** A non-blank name can still give an empty slug. */
  lemma SlugifyCanBeEmpty()
    ensures Slugify("???") == []
  {
    assert Lower("???") == "???";
    RemoveAll("???", NotAlnum);
    assert NoneOf("???", NotAscii);
    SlugifyEmptyIff("???");
  }
}

=== FILE: text.dfy ===
/** Character-level string primitives with the meaning the generator's
    Python code gives them: `str.strip()`, `str.lower()`, `str.replace`,
    `str.splitlines()`, `sep.join(...)`, and a few helpers to state
    properties about strings (prefix before a stop character, removal of a
    character class, occurrence counting). */
module Text {

  /** Whitespace as Python's `str.isspace` (and so `str.strip()`) sees it:
      the code points of Unicode type WS, B or S, or category Zs. */
  predicate IsSpace(c: char) {
    || ('\t' <= c <= '\r')
    || ('\U{1C}' <= c <= ' ')
    || c == '\U{85}' || c == '\U{A0}' || c == '\U{1680}'
    || ('\U{2000}' <= c <= '\U{200A}')
    || c == '\U{2028}' || c == '\U{2029}' || c == '\U{202F}'
    || c == '\U{205F}' || c == '\U{3000}'
  }

  /** The line boundaries of Python's `str.splitlines` (`\r\n` is one
      boundary made of two of them). */
  predicate IsLineBreak(c: char) {
    || c == '\n' || c == '\r' || c == '\U{0B}' || c == '\U{0C}'
    || ('\U{1C}' <= c <= '\U{1E}')
    || c == '\U{85}' || c == '\U{2028}' || c == '\U{2029}'
  }

  /** No character of `s` satisfies `p`. */
  predicate NoneOf(s: string, p: char -> bool) {
    forall i :: 0 <= i < |s| ==> !p(s[i])
  }

  /** The longest prefix of `s` that holds no character satisfying `stop`. */
  function Before(s: string, stop: char -> bool): (r: string)
    ensures r <= s
    ensures NoneOf(r, stop)
    ensures |r| == |s| || stop(s[|r|])
  {
    if s == [] || stop(s[0]) then [] else [s[0]] + Before(s[1..], stop)
  }

  /** `Before` stops exactly at the end of a stop-free part when a stop
      character (or the end of the string) follows it. */
  lemma {:induction false} BeforeStopsAt(t: string, rest: string, stop: char -> bool)
    requires NoneOf(t, stop)
    requires rest == [] || stop(rest[0])
    ensures Before(t + rest, stop) == t
    decreases |t|
  {
    if t == [] {
      assert t + rest == rest;
    } else {
      assert (t + rest)[0] == t[0] && !stop(t[0]);
      assert (t + rest)[1..] == t[1..] + rest;
      BeforeStopsAt(t[1..], rest, stop);
    }
  }

  /** `s` with its leading characters satisfying `p` removed. */
  function TrimLeft(s: string, p: char -> bool): (r: string)
    ensures |r| <= |s| && r == s[|s| - |r|..]
    ensures forall i :: 0 <= i < |s| - |r| ==> p(s[i])
    ensures r == [] || !p(r[0])
  {
    if s != [] && p(s[0]) then TrimLeft(s[1..], p) else s
  }

  /** Trimming the left of a run of class characters followed by a
      character outside the class leaves what follows the run. */
  lemma {:induction false} TrimLeftRun(run: string, rest: string, p: char -> bool)
    requires forall i :: 0 <= i < |run| ==> p(run[i])
    requires rest == [] || !p(rest[0])
    ensures TrimLeft(run + rest, p) == rest
    decreases |run|
  {
    if run == [] {
      assert run + rest == rest;
    } else {
      assert (run + rest)[0] == run[0];
      assert (run + rest)[1..] == run[1..] + rest;
      TrimLeftRun(run[1..], rest, p);
    }
  }

  /** `s` with its trailing characters satisfying `p` removed. */
  function TrimRight(s: string, p: char -> bool): (r: string)
    ensures r <= s
    ensures forall i :: |r| <= i < |s| ==> p(s[i])
    ensures r == [] || !p(r[|r| - 1])
  {
    if s != [] && p(s[|s| - 1]) then TrimRight(s[..|s| - 1], p) else s
  }

  /** `s` neither starts nor ends with a character satisfying `p`. */
  predicate Trimmed(s: string, p: char -> bool) {
    s == [] || (!p(s[0]) && !p(s[|s| - 1]))
  }

  /** Python's `s.strip(chars)` for the character class `p`. */
  function Trim(s: string, p: char -> bool): (r: string)
    ensures Trimmed(r, p)
  {
    TrimRight(TrimLeft(s, p), p)
  }

  /** Trimming cuts characters of the class at both ends and nothing else:
      the result is the slice `s[lo..hi]` and everything outside it
      belongs to the class. */
  lemma TrimSlice(s: string, p: char -> bool) returns (lo: nat, hi: nat)
    ensures lo <= hi <= |s| && Trim(s, p) == s[lo..hi]
    ensures forall i :: 0 <= i < lo ==> p(s[i])
    ensures forall i :: hi <= i < |s| ==> p(s[i])
  {
    var left := TrimLeft(s, p);
    lo := |s| - |left|;
    TrimRightSlice(left, s, lo, p);
    hi := lo + |TrimRight(left, p)|;
  }

  /** Trimming the end of a suffix `s[lo..]` cuts only characters of the
      class at the end of `s`. */
  lemma TrimRightSlice(left: string, s: string, lo: nat, p: char -> bool)
    requires lo <= |s| && left == s[lo..]
    ensures TrimRight(left, p) == s[lo..lo + |TrimRight(left, p)|]
    ensures forall i :: lo + |TrimRight(left, p)| <= i < |s| ==> p(s[i])
  {
    var r := TrimRight(left, p);
    forall i | lo + |r| <= i < |s|
      ensures p(s[i])
    {
      assert s[i] == left[i - lo];
    }
  }

  /** Trimming removes nothing from a string that is already trimmed. */
  lemma TrimOfTrimmed(s: string, p: char -> bool)
    requires Trimmed(s, p)
    ensures Trim(s, p) == s
  {
  }

  /** Trimming the left of `a + b` stops inside `a` when `a` holds a
      character outside the class. */
  lemma {:induction false} TrimLeftAppend(a: string, b: string, p: char -> bool)
    requires TrimLeft(a, p) != []
    ensures TrimLeft(a + b, p) == TrimLeft(a, p) + b
    decreases |a|
  {
    assert (a + b)[0] == a[0];
    if p(a[0]) {
      assert (a + b)[1..] == a[1..] + b;
      TrimLeftAppend(a[1..], b, p);
    }
  }

  /** Text appended after a character outside the class is kept whole by
      trimming, when it does not itself end with the class. */
  lemma TrimAppend(a: string, b: string, p: char -> bool)
    requires a != [] && !p(a[|a| - 1])
    requires b == [] || !p(b[|b| - 1])
    ensures Trim(a + b, p) == Trim(a, p) + b
  {
    var left := TrimLeft(a, p);
    assert left != [];
    assert left[|left| - 1] == a[|a| - 1];
    TrimLeftAppend(a, b, p);
    assert (left + b)[|left + b| - 1] == if b == [] then left[|left| - 1] else b[|b| - 1];
  }

  /** `s` neither starts nor ends with whitespace. */
  predicate IsStripped(s: string) {
    s == [] || (!IsSpace(s[0]) && !IsSpace(s[|s| - 1]))
  }

  /** Python's `s.lstrip()`. */
  function StripLeft(s: string): (r: string)
    ensures |r| <= |s|
    ensures r == [] || !IsSpace(r[0])
  {
    if s != [] && IsSpace(s[0]) then StripLeft(s[1..]) else s
  }

  /** `lstrip` cuts leading whitespace and nothing else. */
  lemma {:induction false} StripLeftSuffix(s: string)
    ensures StripLeft(s) == s[|s| - |StripLeft(s)|..]
    ensures forall i :: 0 <= i < |s| - |StripLeft(s)| ==> IsSpace(s[i])
    decreases |s|
  {
    if s != [] && IsSpace(s[0]) {
      StripLeftSuffix(s[1..]);
      assert s[1..][|s| - 1 - |StripLeft(s)|..] == s[|s| - |StripLeft(s)|..];
      forall i | 1 <= i < |s| - |StripLeft(s)|
        ensures IsSpace(s[i])
      {
        assert s[i] == s[1..][i - 1];
      }
    }
  }

  /** Python's `s.rstrip()`. */
  function StripRight(s: string): (r: string)
    ensures r <= s
    ensures forall i :: |r| <= i < |s| ==> IsSpace(s[i])
    ensures r == [] || !IsSpace(r[|r| - 1])
  {
    if s != [] && IsSpace(s[|s| - 1]) then StripRight(s[..|s| - 1]) else s
  }

  /** Python's `s.strip()`: `s` without its leading and trailing
      whitespace. */
  function Strip(s: string): (r: string)
    ensures IsStripped(r)
  {
    StripRight(StripLeft(s))
  }

  /** Stripping cuts whitespace at both ends and nothing else: the result
      is the slice `s[lo..hi]` and everything outside it is whitespace. */
  lemma StripSlice(s: string) returns (lo: nat, hi: nat)
    ensures lo <= hi <= |s| && Strip(s) == s[lo..hi]
    ensures forall i :: 0 <= i < lo ==> IsSpace(s[i])
    ensures forall i :: hi <= i < |s| ==> IsSpace(s[i])
  {
    var left := StripLeft(s);
    StripLeftSuffix(s);
    lo := |s| - |left|;
    StripRightSlice(left, s, lo);
    hi := lo + |StripRight(left)|;
  }

  /** `rstrip` of a suffix `s[lo..]` cuts only whitespace at the end of `s`. */
  lemma StripRightSlice(left: string, s: string, lo: nat)
    requires lo <= |s| && left == s[lo..]
    ensures StripRight(left) == s[lo..lo + |StripRight(left)|]
    ensures forall i :: lo + |StripRight(left)| <= i < |s| ==> IsSpace(s[i])
  {
    var r := StripRight(left);
    forall i | lo + |r| <= i < |s|
      ensures IsSpace(s[i])
    {
      assert s[i] == left[i - lo];
    }
  }

  /** Stripping a stripped string changes nothing. */
  lemma StripOfStripped(s: string)
    requires IsStripped(s)
    ensures Strip(s) == s
  {
  }

  /** `lstrip` of `a + b` stops inside `a` when `a` is not all
      whitespace. */
  lemma {:induction false} StripLeftAppend(a: string, b: string)
    requires StripLeft(a) != []
    ensures StripLeft(a + b) == StripLeft(a) + b
    decreases |a|
  {
    assert (a + b)[0] == a[0];
    if IsSpace(a[0]) {
      assert (a + b)[1..] == a[1..] + b;
      StripLeftAppend(a[1..], b);
    }
  }

  /** Text appended after a non-whitespace character is kept whole by
      `strip()`, when it does not itself end with whitespace. */
  lemma StripAppend(a: string, b: string)
    requires a != [] && !IsSpace(a[|a| - 1])
    requires b == [] || !IsSpace(b[|b| - 1])
    ensures Strip(a + b) == Strip(a) + b
    ensures Strip(a) != [] && Strip(a)[|Strip(a)| - 1] == a[|a| - 1]
  {
    var left := StripLeft(a);
    StripLeftSuffix(a);
    assert left != [];
    assert left[|left| - 1] == a[|a| - 1];
    StripLeftAppend(a, b);
    assert (left + b)[|left + b| - 1] == if b == [] then left[|left| - 1] else b[|b| - 1];
  }

  /** Python's `str.lower()` on one character, restricted to ASCII. */
  function LowerChar(c: char): char {
    if 'A' <= c <= 'Z' then (c as int - 'A' as int + 'a' as int) as char else c
  }

  /** Python's `str.lower()`, restricted to ASCII letters. */
  function Lower(s: string): string {
    seq(|s|, i requires 0 <= i < |s| => LowerChar(s[i]))
  }

  /** Lowercasing works character by character. */
  lemma LowerAppend(a: string, b: string)
    ensures Lower(a + b) == Lower(a) + Lower(b)
  {
  }

  /** Python's `s.replace(from, to)` for single characters. */
  function Replace(s: string, from: char, to: char): string {
    seq(|s|, i requires 0 <= i < |s| => if s[i] == from then to else s[i])
  }

  /** `s` without the characters satisfying `p`, the others kept in order. */
  function Remove(s: string, p: char -> bool): (r: string)
    ensures |r| <= |s|
  {
    if s == [] then [] else (if p(s[0]) then [] else [s[0]]) + Remove(s[1..], p)
  }

  /** Nothing of the removed class is left. */
  lemma {:induction false} RemoveLeavesNone(s: string, p: char -> bool)
    ensures NoneOf(Remove(s, p), p)
    decreases |s|
  {
    if s != [] {
      RemoveLeavesNone(s[1..], p);
    }
  }

  /** Removing a class that does not occur changes nothing. */
  lemma {:induction false} RemoveNone(s: string, p: char -> bool)
    requires NoneOf(s, p)
    ensures Remove(s, p) == s
    decreases |s|
  {
    if s != [] {
      RemoveNone(s[1..], p);
      assert [s[0]] + s[1..] == s;
    }
  }

  /** Removing a smaller class first does not change what removing a
      larger class leaves. */
  lemma {:induction false} RemoveSubsumed(s: string, q: char -> bool, p: char -> bool)
    requires forall c :: q(c) ==> p(c)
    ensures Remove(Remove(s, q), p) == Remove(s, p)
    decreases |s|
  {
    if s != [] {
      RemoveAppend(if q(s[0]) then [] else [s[0]], Remove(s[1..], q), p);
      RemoveSubsumed(s[1..], q, p);
    }
  }

  lemma {:induction false} RemoveAppend(a: string, b: string, p: char -> bool)
    ensures Remove(a + b, p) == Remove(a, p) + Remove(b, p)
    decreases |a|
  {
    if a == [] {
      assert a + b == b;
    } else {
      assert (a + b)[0] == a[0];
      assert (a + b)[1..] == a[1..] + b;
      RemoveAppend(a[1..], b, p);
    }
  }

  /** Removing the characters of a class leaves nothing of a string made
      only of that class. */
  lemma {:induction false} RemoveAll(s: string, p: char -> bool)
    requires forall i :: 0 <= i < |s| ==> p(s[i])
    ensures Remove(s, p) == []
    decreases |s|
  {
    if s != [] {
      RemoveAll(s[1..], p);
    }
  }

  /** Removing a class from a string whose characters outside the slice
      `s[lo..hi]` all belong to it leaves what removing it from the slice
      leaves. */
  lemma {:induction false} RemoveDropPrefix(s: string, lo: nat, p: char -> bool)
    requires lo <= |s|
    requires forall i :: 0 <= i < lo ==> p(s[i])
    ensures Remove(s, p) == Remove(s[lo..], p)
    decreases lo
  {
    if lo == 0 {
      assert s[lo..] == s;
    } else {
      var t := s[1..];
      forall i | 0 <= i < lo - 1
        ensures p(t[i])
      {
        assert t[i] == s[i + 1];
      }
      RemoveDropPrefix(t, lo - 1, p);
      assert t[lo - 1..] == s[lo..];
    }
  }

  lemma RemoveDropSuffix(s: string, hi: nat, p: char -> bool)
    requires hi <= |s|
    requires forall i :: hi <= i < |s| ==> p(s[i])
    ensures Remove(s, p) == Remove(s[..hi], p)
  {
    var a, b := s[..hi], s[hi..];
    assert s == a + b;
    forall i | 0 <= i < |b|
      ensures p(b[i])
    {
      assert b[i] == s[hi + i];
    }
    RemoveAppend(a, b, p);
    RemoveAll(b, p);
  }

  lemma RemoveOutside(s: string, lo: nat, hi: nat, p: char -> bool)
    requires lo <= hi <= |s|
    requires forall i :: 0 <= i < |s| && !(lo <= i < hi) ==> p(s[i])
    ensures Remove(s, p) == Remove(s[lo..hi], p)
  {
    assert forall i :: hi <= i < |s| ==> p(s[i]);
    RemoveDropSuffix(s, hi, p);
    var t := s[..hi];
    assert forall i :: 0 <= i < lo ==> t[i] == s[i];
    RemoveDropPrefix(t, lo, p);
    assert t[lo..] == s[lo..hi];
  }

  /** Python's `sep.join(parts)`. */
  function JoinWith(parts: seq<string>, sep: string): (r: string)
    ensures (forall k :: 0 <= k < |parts| ==> parts[k] != []) ==> (r == [] <==> parts == [])
  {
    if parts == [] then []
    else if |parts| == 1 then parts[0]
    else parts[0] + sep + JoinWith(parts[1..], sep)
  }

  /** Python's `str.splitlines()`: the lines of `s` without their line
      boundaries; a final boundary does not start a new, empty line. */
  function SplitLines(s: string): (r: seq<string>)
    ensures forall k :: 0 <= k < |r| ==> NoneOf(r[k], IsLineBreak)
    decreases |s|
  {
    if s == [] then []
    else
      var line := Before(s, IsLineBreak);
      if |line| == |s| then [s]
      else
        var width := if s[|line|] == '\r' && |line| + 1 < |s| && s[|line| + 1] == '\n' then 2 else 1;
        [line] + SplitLines(s[|line| + width..])
  }

  /** Splitting a text assembled from lines with `\n` gives the lines back,
      provided no line holds a boundary and the last line is not empty. */
  lemma {:induction false} SplitJoinLines(lines: seq<string>)
    requires forall k :: 0 <= k < |lines| ==> NoneOf(lines[k], IsLineBreak)
    requires lines == [] || lines[|lines| - 1] != []
    ensures SplitLines(JoinWith(lines, "\n")) == lines
    decreases |lines|
  {
    if |lines| == 1 {
      BeforeStopsAt(lines[0], [], IsLineBreak);
      assert lines[0] + [] == lines[0];
    } else if |lines| > 1 {
      var rest := lines[1..];
      assert rest[|rest| - 1] == lines[|lines| - 1];
      forall k | 0 <= k < |rest|
        ensures NoneOf(rest[k], IsLineBreak)
      {
        assert rest[k] == lines[k + 1];
      }
      SplitJoinLines(rest);
      var tail := JoinWith(rest, "\n");
      assert JoinWith(lines, "\n") == lines[0] + ['\n'] + tail;
      SplitLinesBreak(lines[0], '\n', tail);
    }
  }

  /** A line ended by `\r\n` is split off at that pair: the two characters
      make one boundary, not two with an empty line between them. */
  lemma SplitLinesCrLf(a: string, b: string)
    requires NoneOf(a, IsLineBreak)
    ensures SplitLines(a + "\r\n" + b) == [a] + SplitLines(b)
  {
    var s := a + "\r\n" + b;
    assert s == a + ("\r\n" + b);
    BeforeStopsAt(a, "\r\n" + b, IsLineBreak);
    assert s[|a|] == '\r' && s[|a| + 1] == '\n';
    assert s[|a| + 2..] == b;
  }

  /** A line ended by any other single boundary character is split off at
      it; a `\r` counts alone when no `\n` follows it. */
  lemma SplitLinesBreak(a: string, c: char, b: string)
    requires NoneOf(a, IsLineBreak) && IsLineBreak(c)
    requires c == '\r' ==> b == [] || b[0] != '\n'
    ensures SplitLines(a + [c] + b) == [a] + SplitLines(b)
  {
    var s := a + [c] + b;
    assert s == a + ([c] + b);
    BeforeStopsAt(a, [c] + b, IsLineBreak);
    assert s[|a|] == c;
    if c == '\r' && b != [] {
      assert s[|a| + 1] == b[0];
    }
    assert s[|a| + 1..] == b;
  }

  /** The number of positions at which `pat` starts in `s`. */
  function Occurrences(s: string, pat: string): nat
    decreases |s|
  {
    if s == [] then 0 else (if pat <= s then 1 else 0) + Occurrences(s[1..], pat)
  }

  /** A pattern whose first character is absent from `s` does not occur. */
  lemma {:induction false} OccurrencesNone(s: string, pat: string)
    requires pat != [] && pat[0] !in s
    ensures Occurrences(s, pat) == 0
    decreases |s|
  {
    if s != [] {
      OccurrencesNone(s[1..], pat);
    }
  }

  /** A piece whose only possible match is at its start. */
  lemma OccurrencesOfPiece(s: string, pat: string)
    requires s != [] && pat != [] && pat[0] !in s[1..]
    ensures Occurrences(s, pat) == if pat <= s then 1 else 0
  {
    OccurrencesNone(s[1..], pat);
  }

  /** Occurrences add up over a concatenation when no match can straddle
      the seam, i.e. when the first character of the pattern does not
      appear among the last `|pat| - 1` characters of the left part. */
  lemma {:induction false} OccurrencesAppend(a: string, b: string, pat: string)
    requires pat != []
    requires forall i :: 0 <= i < |a| && |a| - |pat| < i ==> a[i] != pat[0]
    ensures Occurrences(a + b, pat) == Occurrences(a, pat) + Occurrences(b, pat)
    decreases |a|
  {
    if a == [] {
      assert a + b == b;
    } else {
      assert (a + b)[1..] == a[1..] + b;
      if |a| >= |pat| {
        assert (pat <= a + b) == (pat <= a) by {
          assert (a + b)[..|pat|] == a[..|pat|];
        }
      } else {
        assert (a + b)[0] == a[0] != pat[0];
        assert !(pat <= a + b) && !(pat <= a);
      }
      OccurrencesAppend(a[1..], b, pat);
    }
  }

  /** A string made of two parts has none of a class iff neither part has. */
  lemma NoneOfAppend(a: string, b: string, p: char -> bool)
    ensures NoneOf(a + b, p) <==> NoneOf(a, p) && NoneOf(b, p)
  {
    if NoneOf(a, p) && NoneOf(b, p) {
      forall i | 0 <= i < |a + b|
        ensures !p((a + b)[i])
      {
        if i >= |a| {
          assert (a + b)[i] == b[i - |a|];
        }
      }
    }
    if NoneOf(a + b, p) {
      forall i | 0 <= i < |a|
        ensures !p(a[i])
      {
        assert (a + b)[i] == a[i];
      }
      forall i | 0 <= i < |b|
        ensures !p(b[i])
      {
        assert (a + b)[|a| + i] == b[i];
      }
    }
  }

  /** Counting over a piece followed by more text, when the first
      character of the pattern can only occur at the start of the piece
      and a piece starting with it is at least as long as the pattern. */
  lemma OccurrencesCons(piece: string, rest: string, pat: string)
    requires pat != []
    requires forall i :: 0 < i < |piece| ==> piece[i] != pat[0]
    requires piece != [] && piece[0] == pat[0] ==> |pat| <= |piece|
    ensures Occurrences(piece + rest, pat) == (if pat <= piece then 1 else 0) + Occurrences(rest, pat)
  {
    OccurrencesAppend(piece, rest, pat);
    if piece != [] {
      OccurrencesOfPiece(piece, pat);
    }
  }

  lemma Assoc(a: string, b: string, c: string)
    ensures a + b + c == a + (b + c)
  {
  }

  /** Python's `s.endswith(suffix)`. */
  predicate EndsWith(s: string, suffix: string) {
    |suffix| <= |s| && s[|s| - |suffix|..] == suffix
  }

  /** `s` with the suffix cut off. */
  function DropEnd(s: string, suffix: string): (r: string)
    requires EndsWith(s, suffix)
    ensures |r| + |suffix| == |s|
  {
    s[..|s| - |suffix|]
  }

  lemma EndsWithAppend(a: string, b: string)
    ensures EndsWith(a + b, b) && DropEnd(a + b, b) == a
  {
    assert (a + b)[|a|..] == b;
    assert (a + b)[..|a|] == a;
  }

  /** The longest suffix of `s` holding no character of the class `stop`:
      what follows the last such character. */
  function AfterLast(s: string, stop: char -> bool): (r: string)
    ensures |r| <= |s|
    decreases |s|
  {
    if s == [] then []
    else if stop(s[|s| - 1]) then []
    else AfterLast(s[..|s| - 1], stop) + [s[|s| - 1]]
  }

  /** What follows the last stop character is the part after it. */
  lemma {:induction false} AfterLastOf(x: string, c: char, y: string, stop: char -> bool)
    requires stop(c) && NoneOf(y, stop)
    ensures AfterLast(x + [c] + y, stop) == y
    decreases |y|
  {
    var s := x + [c] + y;
    if y == [] {
      assert s[|s| - 1] == c;
    } else {
      var last := y[|y| - 1];
      assert s[|s| - 1] == last;
      assert s[..|s| - 1] == x + [c] + y[..|y| - 1];
      AfterLastOf(x, c, y[..|y| - 1], stop);
      assert y[..|y| - 1] + [last] == y;
    }
  }
}

=== FILE: wrappers.dfy ===
/** The optional-value datatype used for "no record" and "no job" results,
    and the values of a sequence of optional results. */
module Wrappers {

  datatype Option<+T> = None | Some(value: T)

  /** The present values of `xs`, in order: what a generator yields when
      it skips the steps that produce nothing. */
  function Values<T>(xs: seq<Option<T>>): (r: seq<T>)
    ensures |r| <= |xs|
  {
    if xs == [] then []
    else (if xs[0].Some? then [xs[0].value] else []) + Values(xs[1..])
  }

  /** Skipping commutes with concatenation: order is kept. */
  lemma {:induction false} ValuesAppend<T>(a: seq<Option<T>>, b: seq<Option<T>>)
    ensures Values(a + b) == Values(a) + Values(b)
    decreases |a|
  {
    if a == [] {
      assert a + b == b;
    } else {
      assert (a + b)[0] == a[0];
      assert (a + b)[1..] == a[1..] + b;
      ValuesAppend(a[1..], b);
    }
  }

  /** Every present value is kept. */
  lemma ValuesKeep<T>(xs: seq<Option<T>>, k: nat)
    requires k < |xs| && xs[k].Some?
    ensures xs[k].value in Values(xs)
  {
    assert xs == xs[..k] + ([xs[k]] + xs[k + 1..]);
    ValuesAppend(xs[..k], [xs[k]] + xs[k + 1..]);
    ValuesAppend([xs[k]], xs[k + 1..]);
    assert Values([xs[k]]) == [xs[k].value];
  }

  /** Every kept value is present somewhere. */
  lemma {:induction false} ValuesFrom<T>(xs: seq<Option<T>>, v: T)
    requires v in Values(xs)
    ensures exists k :: 0 <= k < |xs| && xs[k] == Some(v)
    decreases |xs|
  {
    if xs[0] != Some(v) {
      ValuesFrom(xs[1..], v);
      var k :| 0 <= k < |xs[1..]| && xs[1..][k] == Some(v);
      assert xs[k + 1] == Some(v);
    }
  }

  /** Nothing is kept exactly when nothing is present. */
  lemma {:induction false} ValuesEmpty<T>(xs: seq<Option<T>>)
    ensures Values(xs) == [] <==> forall k :: 0 <= k < |xs| ==> xs[k].None?
    decreases |xs|
  {
    if xs != [] {
      ValuesEmpty(xs[1..]);
      if xs[0].None? {
        forall k | 0 < k < |xs|
          ensures xs[k] == xs[1..][k - 1]
        {
        }
      }
    }
  }
}
